=== FILE: README.md ===
# Cloudflare IP tester: a Dafny model of its decision logic

The repository holds two Python scripts that probe candidate Cloudflare
edge addresses.

- `isdnsok.py` pins a test domain to each candidate address. It sends the
  request through that address and calls the candidate reachable when the
  answer is status 200 and contains `Hello World!`. Reachable candidates are
  then enriched in rate-limited batches: a geolocation query and a
  proxy-check query. The script adds an ICMP latency, merges everything into
  one row per address, and ranks the rows by latency.
- `tester.py` is an older variant of the same idea. It keeps a global
  `(host, port)` override table in front of the system resolver. It
  recognises Cloudflare from `/cdn-cgi/trace` or from response headers,
  reads the datacenter code from the trace, and normalises country names. It
  ranks the results and merges them into a saved record file, replacing
  re-tested addresses.

The model covers the logic around each probe, which is pure once its inputs
are fixed. Every HTTP answer, ICMP echo reading and JSON decoding is an
input:

- a datatype value for a response;
- a sequence with one entry per candidate for what each connectivity
  probe met, so a candidate listed twice can meet two different answers;
- a function parameter for what the later stages' services answer for an
  address;
- abstract decoders for JSON parsing. `check_proxy` gets two of them:
  `readJson` for `response.json()`, which also sees the declared type, and
  `loads` for `json.loads`.

Everything else is modelled as the code does it, except the two latency
corrections listed under "## Findings" and "## Left out":

- string handling (`split`, `strip`, `lower`, `in`, `startswith`);
- the fallbacks and default values;
- batching, with the pauses between batches;
- the merge by address;
- Python's stable `sorted`, with infinity last.

Modules, one per file:

| module | models |
|---|---|
| `Wrappers` | `Option` |
| `Text` | Python string operations as `seq<char>` functions |
| `JsonData` | scalar JSON values, `dict.get`, truthiness |
| `Sockets` | address families |
| `Colo` | `get_colo_chinese` and the datacenter lookup of `main` |
| `Resolver` | `SimpleResolver.resolve` / `CustomResolver.resolve` |
| `Connectivity` | the result of `test_ip` (isdnsok.py) |
| `Geo` | `query_geo` |
| `Proxy` | `check_proxy` |
| `Ping` | `ping_ip` and `test_latency` |
| `Ranking` | `sorted(..., key=latency)` as a stable insertion sort |
| `Batching` | the batch slicing and the sleep rule of `main` (isdnsok.py) |
| `Pipeline` | `main` of isdnsok.py: classify, enrich, merge, rank |
| `Hosts` | `etc_hosts`, `custom_resolver`, `bind_ip` (tester.py) |
| `Location` | `country_mapping` and `get_ip_location` |
| `Trace` | `is_cloudflare`, `get_cloudflare_colo` |
| `TesterRun` | `main` and `save_to_csv` of tester.py |

Latency is `Finite(ms) | Unmeasured`. Python's `float('inf')` and
tester.py's `测试失败` cell both map to `Unmeasured`, which ranks after every
finite value.

## Model

| member | source | states |
|---|---|---|
| `Colo.GetColoChinese` | isdnsok.py:60-79 | The result is always `未知`, the code itself, or a value of the mapping. An empty code or `N/A` gives `未知`. An exact key hit returns its value. |
| `Colo.PlainCodeExactOnly` | isdnsok.py:60-79 | A code with no space and no `(` is looked up only exactly, and falls back to itself. |
| `Colo.LabelledCodeUsesPrefix` | isdnsok.py:68-71 | `XXX (place)` resolves through the part before the first space and `(` when it is not itself a key. |
| `Colo.HongKongExample` | isdnsok.py:68-71 | `HKG (Hong Kong)` resolves to the mapping's value for `HKG`. |
| `Colo.CleanCodeOfBracketed` | isdnsok.py:69 | A code starting with `(` cleans to the empty string. |
| `Colo.BracketCodeOfBracketed` | isdnsok.py:74-75 | The text between `(` and `)` of `(b)` is `b`. |
| `Colo.BracketedNameResolves` | isdnsok.py:73-77 | `(b)` resolves through `b` when the earlier stages miss. |
| `Colo.ColoName` | isdnsok.py:446-447 | A falsy colo gives `未知`, and a string is looked up. A truthy non-string value raises, modelled as `None`. |
| `Sockets.FamilyOf` | isdnsok.py:108-113 | AF_INET6 exactly when the address contains `:`. |
| `Resolver.Resolve` | isdnsok.py:110-123 | For the test domain it gives exactly one entry: the pinned address, the caller's port, family by `:`, and proto and flags 0. Every other host goes to the fallback resolver unchanged. |
| `Resolver.OverrideIgnoresRequestedFamily` | isdnsok.py:110-113 | The requested family does not change the pinned answer. |
| `Resolver.OverridesAreIsolated` | isdnsok.py:129-147 | Two resolvers pinned to different addresses answer the domain differently. |
| `Connectivity.Classify` | isdnsok.py:173-182 | Reachable iff status 200 and the body contains `Hello World!`. On success the snippet is the first 12 characters. A failure keeps the status with an empty snippet, and an exception gives status 0. |
| `Connectivity.ReachableSnippetIsFull` | isdnsok.py:173-175 | A reachable answer contains the 12-character marker, so its snippet is exactly 12 characters. |
| `Geo.QueryGeo` | isdnsok.py:187-218 | Status `success` gives each field, or `N/A` when missing. Another status gives `查询失败` with the message or `Unknown error`. An exception, or a body without `status` (a `KeyError`), gives `查询异常` with the region `str(e)[:50]`: a prefix of the message, exactly min(50, length) characters long. |
| `Proxy.QueryTarget` | isdnsok.py:225 | An IPv6 address is bracketed for the URL, and any other address is kept. |
| `Proxy.QueryTargetUnbracketed` | isdnsok.py:313-315 | The latency probe's bracket stripping undoes the bracketing the proxy URL adds at line 225. |
| `Proxy.CheckProxy` | isdnsok.py:221-304 | A body declared JSON is read by `response.json()`. Any other body whose first non-blank character is `{` is read by `json.loads`. Either way, a body that parses gives its four fields with their defaults. An exception, a parser that raises, or a body that does not sniff as JSON gives the one failure record. |
| `Proxy.ContentTypeIrrelevantForObjects` | isdnsok.py:232-243 | Take a body whose first non-blank character is `{`, and assume `response.json()` agrees with `json.loads` on it under each declared JSON type involved. Then the body is read the same way whatever `Content-Type` says. |
| `Proxy.DeclaredTypeSelectsParser` | isdnsok.py:232-243 | When `response.json()` accepts a body that `json.loads` rejects, `application/json` gives its fields and `text/plain` gives the failure record. |
| `Proxy.PlainTextObjectIsParsed` | isdnsok.py:234-243 | A `text/plain` answer holding a JSON object after leading blanks is read as JSON. |
| `Ping.Delays` | isdnsok.py:319-322 | At most one delay per echo, and none iff no echo replied. |
| `Ping.DelaysMembers` | isdnsok.py:319-322 | The collected values are exactly the delays of the replies: nothing else is collected and no reply is missed. |
| `Ping.PingIp` | isdnsok.py:307-332 | Infinity iff the library raised or no echo replied. |
| `Ping.FailedEchoIgnored` | isdnsok.py:319-325 | Adding a failed or timed-out echo changes neither result. |
| `Ping.RaisedEchoEffects` | tester.py:144-150 | An exception makes `ping_ip` infinite but loses only its own echo in `test_latency`, whose `try` is inside the loop. |
| `Ping.PingWithinObservedRange` | isdnsok.py:324-325 | The mean lies between the smallest and largest successful delay. |
| `Ping.MeanOfRepliesOnly` | isdnsok.py:319-325 | Replies 10, 20 and 30 with one timeout average 20, not 15. |
| `Ping.TestLatency` | tester.py:142-152 | `None` iff no echo replied. (`RaisedEchoEffects` shows that an exception loses only its own echo.) |
| `Ping.PingTargetTrims` | isdnsok.py:312-315 | An address without `:` is pinged as given. Otherwise the target is a stretch of the address that does not start or end with a bracket, and only brackets were cut off around it. |
| `Ping.LatencyVariantsAgree` | tester.py:142-152 | On the same readings with no exception, the tester's value is defined iff the isdnsok value is finite, and it is 1000 times that mean. |
| `Ping.PingIpAsWritten` | isdnsok.py:320-322 | Models `is not None` as written, so the library's `False` is kept as 0. The result is infinite iff the library raised or nothing replied or failed. With no failed echo it agrees with `PingIp`. |
| `Ping.TestLatencyAsWritten` | tester.py:147-149 | The same for tester.py: `None` iff nothing replied or failed, and equal to `TestLatency` when no echo failed. |
| `Ping.AllFailedReadsAsZero` | isdnsok.py:320-322 | As written, all-failed echoes read as 0 ms in both scripts (tester.py does the same at lines 147-149), where the corrected functions give infinity and `None`. |
| `Ranking.SortByLatency` | isdnsok.py:479-482 | The output is a permutation of the input, ascending by key, with infinity after every finite key. |
| `Ranking.SortIsStable` | isdnsok.py:479-482 | Records with equal keys keep their input order. |
| `Ranking.UnmeasuredLast` | isdnsok.py:481 | No unmeasured record precedes a measured one. |
| `Ranking.SortIsTheStableSort` | isdnsok.py:479-482 | Any ascending order that keeps equal keys in order is the result, so the sort is Python's stable sort. |
| `Batching.BatchesFrom` | isdnsok.py:388 | The slices concatenate to the input in order. Each holds 1 to `size` items, only the last may be short, and there are none iff the start is past the end. |
| `Batching.BatchCount` | isdnsok.py:388-389 | The number of batches is the ceiling of length over size. |
| `Batching.ScheduleAlternates` | isdnsok.py:393-409 | Steps alternate batch, pause, batch, and so on, ending with the last batch. |
| `Batching.PauseCount` | isdnsok.py:407-409 | n batches sleep exactly n - 1 times. |
| `Batching.PausesSeparateBatches` | isdnsok.py:407-409 | A pause is never first, never last, and sits between two batches. |
| `Batching.MapPermutation` | isdnsok.py:479-482 | Mapping over two permutations of a sequence gives permutations. |
| `Batching.RunStage` | isdnsok.py:393-409 | The stage loop yields the probes of every candidate in order, and exactly the alternating schedule of batches and pauses. |
| `Pipeline.WorkingIps` | isdnsok.py:366-372 | An address is working iff some probe of it was reachable. |
| `Pipeline.WorkingIpsAppend` | isdnsok.py:366-370 | `working_ips` is built by appending in probe order, so the filter of a concatenation is the concatenation of the filters: order and repetitions are kept. |
| `Pipeline.WorkingIpsSingle` | isdnsok.py:368-370 | One result adds its address exactly when it succeeded. |
| `Pipeline.IpInfo` | isdnsok.py:367-377 | Every probed address has an entry, and it holds the last result for that address. |
| `Pipeline.FindProxy` | isdnsok.py:442 | The first proxy result with the address, or none iff no result has it. |
| `Pipeline.Combine` | isdnsok.py:440-467 | A row exists iff the datacenter lookup does not raise. The row carries the geo fields, the recorded status and snippet (0 and "" otherwise), the first proxy result's fields or the failure defaults, the name, and the latency. |
| `Pipeline.Merge` | isdnsok.py:439-469 | One row per geo result, in order. The run aborts iff some datacenter lookup raises. |
| `Connectivity.TestIp` | isdnsok.py:155-184 | `test_ip` raises iff the pinned resolver could not be built; the `finally` clause then replaces the `except` clause's result with `UnboundLocalError`. Otherwise it returns the classification. |
| `Pipeline.ClassifyAll` | isdnsok.py:357-363 | Every candidate is classified in order with its own probe's answer, or nothing iff some probe raises. |
| `Pipeline.RepeatedCandidateLastProbeWins` | isdnsok.py:366-377 | A candidate listed twice whose first probe succeeds and second fails is working, yet `ip_info` holds the failing status and an empty text for it. |
| `Pipeline.Run` | isdnsok.py:335-482 | An empty list ends at once. A raising probe ends the run, because `gather` passes the exception on. A list with no reachable candidate ends the run. Otherwise the run aborts iff the merge of the enriched working addresses raises; when it does not, the ranking is exactly the stable sort by delay of the merged rows, a permutation of the working addresses. Both stages follow the batch schedule of size 9. |
| `Pipeline.MergeKeepsIps` | isdnsok.py:439-442 | When the merge does not abort, its rows carry the working addresses in order. |
| `Hosts.BindIp` | tester.py:137-140 | Binding sets the key to the single pinned tuple and leaves other keys unchanged. |
| `Hosts.GetAddrInfo` | tester.py:127-133 | A bound key answers from the table, and any other key falls through to the builtin resolver. |
| `Hosts.BoundKeyResolves` | tester.py:126-140 | After binding, the key yields `(AF_INET, SOCK_STREAM, 6, '', (ip, port))`. |
| `Hosts.OtherKeysUntouched` | tester.py:126-140 | Binding one key does not change another key's answer. |
| `Hosts.RebindOverwrites` | tester.py:137-140 | Rebinding a key equals binding it once to the new address. |
| `Hosts.EmptyTableFallsThrough` | tester.py:127-133 | An empty table defers to the builtin resolver. |
| `Hosts.SharedBindingIsClobbered` | tester.py:137-140 | Two tests binding the same key: the first address is lost. |
| `Location.MappingValuesAreNotKeys` | tester.py:29-37 | No normalised country name is itself a key of the table. |
| `Location.NormalizeCountry` | tester.py:68-69 | A country in the table becomes its value, and any other is unchanged. |
| `Location.NormalizeIdempotent` | tester.py:29-37 | Normalising twice equals normalising once. |
| `Location.GetIpLocation` | tester.py:60-84 | It raises iff a 200 answer's body does not decode to an object; `except` catches only client and timeout errors. A successful answer gives normalised fields with `未知` defaults. Any other answer gives the all-`未知` location. |
| `Location.LocationCountryIsNormal` | tester.py:60-84 | Every country the lookup returns is already normal. |
| `Trace.IsCloudflare` | tester.py:39-58 | An exception gives False. A trace line starting `fl=` or `colo=` gives True. Otherwise the answer is True iff the headers name Cloudflare. |
| `Trace.TraceMarkedByText` | tester.py:44-48 | The line test holds iff the body starts with the prefix or has it right after a newline. |
| `Trace.LineStartIff` | tester.py:45-47 | For a newline-free prefix, some line starts with it iff the text starts with it or has it after a newline. |
| `Trace.FirstLineWith` | tester.py:92-93 | The index of the first line with the prefix, or none iff no line has it. |
| `Trace.ColoField` | tester.py:94 | `line.split('=')[1]` of a `colo=` line is the text after `colo=` up to the next `=`. |
| `Trace.GetCloudflareColo` | tester.py:86-99 | `未知` iff there is no good trace with a `colo=` line. Otherwise the result is the first such line's code with its name. |
| `Trace.LabelReadBack` | tester.py:95 | The `<code> (<name>)` label, looked up by `get_colo_chinese` of isdnsok.py, resolves to the code's name. |
| `TesterRun.KeysRankAlike` | tester.py:249 | On the same readings with no exception, the tester's ranking key orders two hosts as isdnsok.py's `ping_delay` does. |
| `TesterRun.PassedMembers` | tester.py:241-244 | A record is kept iff some candidate's test produced it. |
| `TesterRun.NonePassed` | tester.py:248-255 | Nothing is kept iff every test failed. |
| `TesterRun.SleepRulesAgree` | tester.py:245 | The wait rule `i + batch_size < len(ips)` holds exactly when another batch follows. |
| `TesterRun.RunBatches` | tester.py:238-247 | The loop keeps the passed records in order, and follows the alternating schedule of slices of 10. |
| `TesterRun.MergeCsv` | tester.py:167-172 | The new records come last and in order. The rest are exactly the existing records whose address was not re-tested. |
| `TesterRun.NoSharedIp` | tester.py:171-172 | No retained record shares an address with a new one. |
| `TesterRun.MergeIps` | tester.py:167-172 | The saved addresses are the old ones together with the new ones. |
| `TesterRun.MergeKeepsUnique` | tester.py:167-172 | Unique addresses in the file and in the new records stay unique. |
| `TesterRun.RetainedUntouched` | tester.py:171 | Records whose address was not re-tested are all kept, in order. |
| `TesterRun.MergeIdempotent` | tester.py:167-172 | Saving the same new records twice gives the same file as saving them once. |
| `TesterRun.RunTester` | tester.py:227-255 | The ranked records are the passed records, sorted ascending with `测试失败` last and ties in test order. Nothing is saved iff every test failed; otherwise the saved file is the merge. |

## Left out

- The HTTP client, TLS, timeouts, semaphores, `asyncio.gather` and
  `asyncio.sleep`. Responses are inputs, and a batch pause is a step in a
  schedule. The concurrency itself is not modelled.
- ICMP and `run_in_executor`. Each echo reading is an input.
- `Proxy.CheckProxy` and `Proxy.ContentTypeIrrelevantForObjects` leave
  `response.json()` abstract. It differs from `json.loads` in two ways.
  It strips all ASCII whitespace from the body bytes, including `\x0b` and
  `\x0c`, which `json.loads` does not skip. It also raises
  `ContentTypeError` unless the parsed MIME type is a JSON type, even when
  the substring test at isdnsok.py:232 passed. The model does not spell these
  out. It only lets the two parsers differ, and `DeclaredTypeSelectsParser`
  shows the effect.
- `Pipeline.Run`: the geolocation, proxy and latency answers are functions
  of the address. A candidate listed twice therefore gets the same answer
  twice from those stages, although the script queries each occurrence
  separately. The connectivity answers are per position, so the
  last-result-wins mismatch in `ip_info` is modelled
  (`RepeatedCandidateLastProbeWins`).
- JSON decoding (`json.loads`, `response.json()`). Each is an abstract
  function parameter. JSON arrays and nested objects as field values are not
  modelled; the fields are scalars.
- Float rounding and formatting: `round(avg, 2)` in `ping_ip`, `:.2f` in
  tester.py, and tester.py's sort key re-read from the formatted string. The
  model keeps unrounded reals.
- The run statistics and percentages, the CSV file writing, and logging.
- `load_colo_mapping`, reading `ip.txt` / `IP.txt`, `read_existing_csv`,
  timestamps and the platform check. The colo mapping, candidate list and
  existing records are parameters.
- `parse_ip_input`. It only wraps Python's `ipaddress` library, so the
  candidate list is an input.
- The patching of `socket.getaddrinfo` and its race between concurrent
  tests. Only the table semantics are modelled; `Hosts.SharedBindingIsClobbered`
  shows the lost binding.
- `resolve`'s `close`, the `close` in `test_ip`'s `finally` clause once a
  resolver exists, and the pauses in tester.py's `finally` clauses. They
  release resources or wait, and decide nothing. The one way this `finally`
  decides something, an unbound `resolver`, is modelled by
  `Connectivity.TestIp`.
- `Pipeline.Combine`: the row's latency is the corrected `Ping.PingIp`, not
  `ping_ip` as written (isdnsok.py:320-322, used at line 466). So an address
  whose every echo fails with the library's `False` gets `Unmeasured` and
  ranks last, where the script records 0 ms and ranks it first. The
  discrepancy is the first row of "## Findings" and is proved by
  `Ping.AllFailedReadsAsZero`; `Pipeline.Run` inherits this.
- `Location.GetIpLocation`: when it raises, tester.py's `test_ip` passes the
  exception to `gather(..., return_exceptions=True)`, and the candidate is
  dropped. In the model this reaches `TesterRun` only as a `None` of its
  generic `test` parameter.
- `test_proxy_ip` and the record assembly of `test_ip` in tester.py,
  including the `是`/`否` and `str(port)` cells. Their results reach the
  model only through the generic `test` parameter of `TesterRun`.
- Headers are a map keyed by lower-case name, standing in for the
  case-insensitive header lookup of the HTTP library.
- The ICMP library's units (seconds in tester.py, milliseconds in
  isdnsok.py) are not tracked beyond the 1000 factor.
- `str.lower` is modelled on ASCII letters only. This is exact for the tests
  made here (`application/json`, `cloudflare`). Two non-ASCII characters
  do lower to ASCII letters. `İ` (U+0130) lowers to `i` followed by the
  combining dot U+0307, and that dot breaks any match through the `i`.
  The Kelvin sign (U+212A) lowers to `k`, which is in neither word.
- The ranking uses insertion sort. It is proved equal to any stable
  ascending order, so the choice of algorithm is not visible.

## Findings

| source | as written | input that shows it | evidently intended | confidence | as-written member | corrected member |
|---|---|---|---|---|---|---|
| isdnsok.py:320-322 | `if delay is not None` keeps the ICMP library's `False` error result, which sums as 0 | three echoes that all fail with an error (unknown host) | a failed echo is not a measurement; with no reply the delay is infinity | medium; not executed | `Ping.PingIpAsWritten` | `Ping.PingIp` |
| tester.py:147-149 | the same `is not None` test keeps `False` as a 0 s delay | four echoes that all fail with an error | `None` (`测试失败`) when no echo replied | medium; not executed | `Ping.TestLatencyAsWritten` | `Ping.TestLatency` |

`Ping.AllFailedReadsAsZero` proves both rows. As written, all-failed echoes
read as `Finite(0.0)` and `Some(0.0)`, so such an address would rank first.
The corrected functions give `Unmeasured` and `None`.

=== FILE: batching.dfy ===
/** Rate-limited batching: a candidate list is cut into consecutive slices
    of a fixed size, and the pipeline pauses between two adjacent slices
    but never after the last one. */
module Batching {
  import opened Text

  function Min(a: int, b: int): int {
    if a <= b then a else b
  }

  /** `[xs[i:i + size] for i in range(start, len(xs), size)]`. */
  function BatchesFrom<T>(xs: seq<T>, start: nat, size: nat): (bs: seq<seq<T>>)
    requires size > 0
    ensures Concat(bs) == xs[Min(start, |xs|)..]
    ensures forall i :: 0 <= i < |bs| ==> 1 <= |bs[i]| <= size
    ensures forall i :: 0 <= i < |bs| - 1 ==> |bs[i]| == size
    ensures |bs| > 0 <==> start < |xs|
    decreases |xs| - start
  {
    if start >= |xs| then []
    else
      var rest := BatchesFrom(xs, start + size, size);
      assert xs[start..] == xs[start..Min(start + size, |xs|)] + xs[Min(start + size, |xs|)..];
      [xs[start..Min(start + size, |xs|)]] + rest
  }

  /** The batches of `xs`: consecutive, in order, each of `1..size`
      elements, only the last one short. */
  function Batches<T>(xs: seq<T>, size: nat): (bs: seq<seq<T>>)
    requires size > 0
    ensures Concat(bs) == xs
    ensures forall i :: 0 <= i < |bs| ==> 1 <= |bs[i]| <= size
    ensures forall i :: 0 <= i < |bs| - 1 ==> |bs[i]| == size
  {
    BatchesFrom(xs, 0, size)
  }

  /** The concatenation of a sequence of batches. */
  function Concat<T>(bs: seq<seq<T>>): seq<T> {
    if |bs| == 0 then [] else bs[0] + Concat(bs[1..])
  }

  /** As many batches as it takes to hold `xs` and not one more:
      `ceil(len(xs) / size)`. */
  lemma {:induction false} BatchCount<T>(xs: seq<T>, start: nat, size: nat)
    requires size > 0 && start <= |xs|
    ensures |BatchesFrom(xs, start, size)| * size >= |xs| - start
    ensures start < |xs| ==> (|BatchesFrom(xs, start, size)| - 1) * size < |xs| - start
    decreases |xs| - start
  {
    if start < |xs| {
      var n := |BatchesFrom(xs, start, size)|;
      var m := |BatchesFrom(xs, start + size, size)|;
      assert n == m + 1;
      if start + size <= |xs| {
        BatchCount(xs, start + size, size);
        CountStep(m, size, |xs| - start);
      } else {
        assert m == 0;
      }
    }
  }

  /** The arithmetic of one more batch. */
  lemma CountStep(m: nat, size: nat, len: int)
    requires 0 < size <= len
    requires m * size >= len - size
    requires size < len ==> (m - 1) * size < len - size
    requires size == len ==> m == 0
    ensures (m + 1) * size >= len
    ensures m * size < len
  {
    assert (m + 1) * size == m * size + size;
    if size < len {
      assert m * size == (m - 1) * size + size;
    }
  }

  lemma {:induction false} ConcatSnoc<T>(bs: seq<seq<T>>, b: seq<T>)
    ensures Concat(bs + [b]) == Concat(bs) + b
    decreases |bs|
  {
    if |bs| > 0 {
      assert (bs + [b])[1..] == bs[1..] + [b];
      ConcatSnoc(bs[1..], b);
    } else {
      assert bs + [b] == [b];
    }
  }

  /** One step of a batched stage: a batch is dispatched and drained, or
      the stage sleeps. */
  datatype Step<T> = Dispatch(batch: seq<T>) | Pause

  /** Dispatch every batch in order, pausing after each batch that has
      another one after it. */
  function Schedule<T>(bs: seq<seq<T>>): seq<Step<T>> {
    if |bs| == 0 then []
    else [Dispatch(bs[0])] + (if |bs| > 1 then [Pause] else []) + Schedule(bs[1..])
  }

  /** The schedule alternates: batch 0, pause, batch 1, pause, ..., the last
      batch. */
  lemma {:induction false} ScheduleAlternates<T>(bs: seq<seq<T>>)
    ensures |Schedule(bs)| == if |bs| == 0 then 0 else 2 * |bs| - 1
    ensures forall i :: 0 <= i < |Schedule(bs)| ==>
              Schedule(bs)[i] == if i % 2 == 0 then Dispatch(bs[i / 2]) else Pause
    decreases |bs|
  {
    if |bs| > 0 {
      var rest := Schedule(bs[1..]);
      ScheduleAlternates(bs[1..]);
      var steps := Schedule(bs);
      assert forall i :: 2 <= i < |steps| ==> steps[i] == rest[i - 2];
    }
  }

  /** The number of pauses in a schedule. */
  function Pauses<T>(steps: seq<Step<T>>): nat {
    if |steps| == 0 then 0 else (if steps[0].Pause? then 1 else 0) + Pauses(steps[1..])
  }

  /** A schedule of `n > 0` batches sleeps `n - 1` times. */
  lemma {:induction false} PauseCount<T>(bs: seq<seq<T>>)
    requires |bs| > 0
    ensures Pauses(Schedule(bs)) == |bs| - 1
    decreases |bs|
  {
    var steps := Schedule(bs);
    if |bs| > 1 {
      PauseCount(bs[1..]);
      assert steps[1..][1..] == Schedule(bs[1..]);
    } else {
      assert |bs[1..]| == 0;
      assert Schedule(bs[1..]) == [];
      assert steps == [Dispatch(bs[0])];
      assert Pauses(steps[1..]) == 0;
    }
  }

  /** A pause always sits between two dispatches: none first, none last,
      never two in a row. */
  lemma PausesSeparateBatches<T>(bs: seq<seq<T>>, i: int)
    requires 0 <= i < |Schedule(bs)| && Schedule(bs)[i].Pause?
    ensures 0 < i < |Schedule(bs)| - 1
    ensures Schedule(bs)[i - 1].Dispatch? && Schedule(bs)[i + 1].Dispatch?
  {
    ScheduleAlternates(bs);
  }

  /** `[f(x) for x in xs]`. */
  function MapSeq<T, R>(f: T -> R, xs: seq<T>): (ys: seq<R>)
    ensures |ys| == |xs|
    ensures forall i :: 0 <= i < |xs| ==> ys[i] == f(xs[i])
  {
    seq(|xs|, i requires 0 <= i < |xs| => f(xs[i]))
  }

  lemma ScheduleStep<T>(bs: seq<seq<T>>, k: nat)
    requires k < |bs|
    ensures Schedule(bs[k..]) == [Dispatch(bs[k])] + (if k + 1 < |bs| then [Pause] else []) + Schedule(bs[k + 1..])
  {
    assert bs[k..][1..] == bs[k + 1..];
  }

  lemma MapSeqAppend<T, R>(f: T -> R, a: seq<T>, b: seq<T>)
    ensures MapSeq(f, a + b) == MapSeq(f, a) + MapSeq(f, b)
  {
  }

  /** Mapping over a sequence with its `k`th element removed loses
      exactly the image of that element. */
  lemma MapRemoveAt<T, R>(f: T -> R, b: seq<T>, k: nat)
    requires k < |b|
    ensures multiset(MapSeq(f, b)) == multiset(MapSeq(f, b[..k] + b[k + 1..])) + multiset{f(b[k])}
  {
    var lo, hi := b[..k], b[k + 1..];
    assert b == lo + ([b[k]] + hi);
    MapSeqAppend(f, lo, [b[k]] + hi);
    MapSeqAppend(f, [b[k]], hi);
    MapSeqAppend(f, lo, hi);
    assert MapSeq(f, [b[k]]) == [f(b[k])];
  }

  /** Taking the first element off one permutation and a matching element
      off the other leaves two permutations. */
  lemma RemoveMatching<T>(a: seq<T>, b: seq<T>, k: nat)
    requires multiset(a) == multiset(b)
    requires 0 < |a| && k < |b| && b[k] == a[0]
    ensures multiset(a[1..]) == multiset(b[..k] + b[k + 1..])
  {
    var lo, hi := b[..k], b[k + 1..];
    assert b == lo + [b[k]] + hi;
    assert multiset(b) == multiset(lo) + multiset{b[k]} + multiset(hi);
    assert multiset(lo + hi) == multiset(lo) + multiset(hi);
    assert a == [a[0]] + a[1..];
    assert multiset(a) == multiset{a[0]} + multiset(a[1..]);
    assert multiset(a[1..]) == multiset(a) - multiset{a[0]};
    assert multiset(lo + hi) == multiset(b) - multiset{b[k]};
  }

  /** Mapping a function over two permutations of each other gives two
      permutations of each other. */
  lemma {:induction false} MapPermutation<T, R>(f: T -> R, a: seq<T>, b: seq<T>)
    requires multiset(a) == multiset(b)
    ensures multiset(MapSeq(f, a)) == multiset(MapSeq(f, b))
    decreases |a|
  {
    if |a| == 0 {
      assert b == [];
    } else {
      var x := a[0];
      assert x in multiset(b);
      assert x in b;
      var k :| 0 <= k < |b| && b[k] == x;
      var rest := b[..k] + b[k + 1..];
      RemoveMatching(a, b, k);
      MapPermutation(f, a[1..], rest);
      MapRemoveAt(f, b, k);
      assert a == [x] + a[1..];
      MapSeqAppend(f, [x], a[1..]);
      assert MapSeq(f, [x]) == [f(x)];
    }
  }

  /** A batched stage of isdnsok.py (geolocation, then proxy check): for
      `batch_num, batch in enumerate(batches, 1)`, run `probe` on every
      element of the batch, collect the results, and sleep when
      `batch_num < total_batches`. */
  method RunStage<T, R>(xs: seq<T>, size: nat, probe: T -> R) returns (results: seq<R>, steps: seq<Step<T>>)
    requires size > 0
    ensures results == MapSeq(probe, xs)
    ensures steps == Schedule(Batches(xs, size))
  {
    var batches := Batches(xs, size);
    var total := |batches|;
    results := [];
    steps := [];
    var batchNum := 1;
    while batchNum <= total
      invariant 1 <= batchNum <= total + 1
      invariant results == MapSeq(probe, Concat(batches[..batchNum - 1]))
      invariant steps + Schedule(batches[batchNum - 1..]) == Schedule(batches)
    {
      var batch := batches[batchNum - 1];
      ResultsStep(probe, batches, batchNum - 1);
      results := results + MapSeq(probe, batch);
      ghost var before := steps;
      steps := steps + [Dispatch(batch)];
      if batchNum < total {
        steps := steps + [Pause];
      }
      StepsStep(batches, batchNum - 1, before, steps);
      batchNum := batchNum + 1;
    }
    assert batches[..total] == batches;
  }

  /** Draining batch `k` extends the results by its probes. */
  lemma ResultsStep<T, R>(probe: T -> R, bs: seq<seq<T>>, k: nat)
    requires k < |bs|
    ensures MapSeq(probe, Concat(bs[..k + 1])) == MapSeq(probe, Concat(bs[..k])) + MapSeq(probe, bs[k])
  {
    ConcatSnoc(bs[..k], bs[k]);
    assert bs[..k + 1] == bs[..k] + [bs[k]];
    MapSeqAppend(probe, Concat(bs[..k]), bs[k]);
  }

  /** Dispatching batch `k`, then pausing when another follows, keeps the
      steps taken so far a prefix of the schedule. */
  lemma StepsStep<T>(bs: seq<seq<T>>, k: nat, before: seq<Step<T>>, after: seq<Step<T>>)
    requires k < |bs|
    requires before + Schedule(bs[k..]) == Schedule(bs)
    requires after == before + [Dispatch(bs[k])] + (if k + 1 < |bs| then [Pause] else [])
    ensures after + Schedule(bs[k + 1..]) == Schedule(bs)
  {
    ScheduleStep(bs, k);
    var d, p, next := [Dispatch(bs[k])], (if k + 1 < |bs| then [Pause] else []), Schedule(bs[k + 1..]);
    AppendAssoc(before + d, p, next);
    AppendAssoc(before, d, p + next);
    AppendAssoc(d, p, next);
  }
}

=== FILE: colo.dfy ===
/** Datacenter display names (`get_colo_chinese` of isdnsok.py): a code is
    looked up as given, then by the part before the first space and `(`,
    then by the text inside its parentheses, and passed through unchanged
    when nothing matches. */
module Colo {
  import opened Wrappers
  import opened Text
  import opened JsonData

  /** The name given to an absent code. */
  const Unknown: string := "未知"

  /** `code.split(" ")[0].split("(")[0]`. */
  function CleanCode(code: string): string {
    Split(Split(code, ' ')[0], '(')[0]
  }

  /** `code.split("(")[1].split(")")[0]`, defined when the code has a `(`. */
  function BracketCode(code: string): string
    requires '(' in code
  {
    Split(Split(code, '(')[1], ')')[0]
  }

  /** The display name of a code under `mapping`. */
  function GetColoChinese(code: string, mapping: map<string, string>): (name: string)
    ensures name == Unknown || name == code || name in mapping.Values
    ensures code == "" || code == "N/A" ==> name == Unknown
    ensures code != "" && code != "N/A" && code in mapping ==> name == mapping[code]
  {
    if code == "" || code == "N/A" then Unknown
    else if code in mapping then mapping[code]
    else if CleanCode(code) in mapping then mapping[CleanCode(code)]
    else if '(' in code && ')' in code && BracketCode(code) in mapping then mapping[BracketCode(code)]
    else code
  }

  /** A code with no space and no parenthesis is found only by exact match:
      the fallbacks cannot find anything else. */
  lemma PlainCodeExactOnly(code: string, mapping: map<string, string>)
    requires code != "" && code != "N/A"
    requires ' ' !in code && '(' !in code
    ensures GetColoChinese(code, mapping) == if code in mapping then mapping[code] else code
  {
    TakeUntilWhole(code, ' ');
    TakeUntilWhole(code, '(');
  }

  /** A code followed by a parenthesised place, `"HKG (Hong Kong)"`, is
      resolved through its leading code before the place is tried. */
  lemma {:induction false} LabelledCodeUsesPrefix(c: string, place: string, mapping: map<string, string>)
    requires ' ' !in c && '(' !in c
    requires c in mapping
    requires c + " (" + place + ")" !in mapping
    ensures GetColoChinese(c + " (" + place + ")", mapping) == mapping[c]
  {
    var code := c + " (" + place + ")";
    assert code == c + (" (" + place + ")");
    TakeUntilPrefix(c, " (" + place + ")", ' ');
    TakeUntilWhole(c, '(');
    assert code != "" && code != "N/A" by {
      assert code[|c|] == ' ';
    }
  }

  /** `"HKG (Hong Kong)"` resolves as `"HKG"`. */
  lemma HongKongExample(mapping: map<string, string>)
    requires "HKG" in mapping && "HKG (Hong Kong)" !in mapping
    ensures GetColoChinese("HKG (Hong Kong)", mapping) == mapping["HKG"]
  {
    assert "HKG" + " (" + "Hong Kong" + ")" == "HKG (Hong Kong)";
    LabelledCodeUsesPrefix("HKG", "Hong Kong", mapping);
  }

  /** A code that opens with `(` has an empty clean code. */
  lemma CleanCodeOfBracketed(code: string)
    requires |code| > 0 && code[0] == '('
    ensures CleanCode(code) == ""
  {
    var first := Split(code, ' ')[0];
    assert first <= code;
    if |first| > 0 {
      assert first[0] == '(';
    }
  }

  /** The bracketed part of `"(" + b + ")"` is `b`. */
  lemma {:induction false} BracketCodeOfBracketed(b: string)
    requires '(' !in b && ')' !in b
    ensures BracketCode("(" + b + ")") == b
  {
    var code := "(" + b + ")";
    assert code[1..] == b + ")";
    assert TakeUntil(code, '(') == [];
    assert Split(code, '(')[1] == Split(b + ")", '(')[0];
    TakeUntilWhole(b + ")", '(');
    TakeUntilPrefix(b, ")", ')');
  }

  /** A code that is only a parenthesised name, `"(HKG)"`, is resolved
      through the name inside the parentheses. */
  lemma BracketedNameResolves(b: string, mapping: map<string, string>)
    requires '(' !in b && ')' !in b
    requires "(" + b + ")" !in mapping && "" !in mapping
    requires b in mapping
    ensures GetColoChinese("(" + b + ")", mapping) == mapping[b]
  {
    var code := "(" + b + ")";
    assert code[0] == '(' && code[|code| - 1] == ')';
    assert code != "" && code != "N/A" && '(' in code && ')' in code;
    CleanCodeOfBracketed(code);
    BracketCodeOfBracketed(b);
    assert CleanCode(code) !in mapping;
    assert BracketCode(code) in mapping;
  }

  /** The display name of the `colo` value a proxy record carries: a falsy
      value is unknown, a string is looked up, and any other value makes
      the lookup raise (`AttributeError` on `.split`), which is `None`. */
  function ColoName(colo: Json, mapping: map<string, string>): (name: Option<string>)
    ensures !Truthy(colo) ==> name == Some(Unknown)
    ensures colo.JStr? ==> name == Some(GetColoChinese(colo.str, mapping))
    ensures name.None? <==> Truthy(colo) && !colo.JStr?
  {
    if !Truthy(colo) then Some(Unknown)
    else if colo.JStr? then Some(GetColoChinese(colo.str, mapping))
    else None
  }
}

=== FILE: connectivity.dfy ===
/** The connectivity probe of isdnsok.py (`test_ip`): one HTTPS GET to the
    domain over a connection pinned to the candidate, classified as
    reachable or not. */
module Connectivity {
  import opened Wrappers
  import opened Text

  /** The literal the endpoint must return. */
  const Marker: string := "Hello World!"

  /** How many leading characters of a good body are kept. */
  const SnippetLength: nat := 12

  /** What the request produced: an exception of any kind (network error,
      timeout, TLS failure, body decoding), or a status and body text. */
  datatype ProbeOutcome = ProbeRaised | ProbeAnswered(status: int, text: string)

  datatype ConnectivityResult = ConnectivityResult(ip: string, reachable: bool, status: int, snippet: string)

  /** The classification `test_ip` returns for `ip`. */
  function Classify(ip: string, outcome: ProbeOutcome): (r: ConnectivityResult)
    ensures r.ip == ip
    ensures r.reachable <==> outcome.ProbeAnswered? && outcome.status == 200 && Contains(outcome.text, Marker)
    ensures r.reachable ==> r.status == 200 && r.snippet <= outcome.text && |r.snippet| == if |outcome.text| < SnippetLength then |outcome.text| else SnippetLength
    ensures !r.reachable ==> r.snippet == ""
    ensures outcome.ProbeRaised? ==> r.status == 0
    ensures outcome.ProbeAnswered? ==> r.status == outcome.status
  {
    match outcome
    case ProbeRaised => ConnectivityResult(ip, false, 0, "")
    case ProbeAnswered(status, text) =>
      if status == 200 && Contains(text, Marker) then
        ConnectivityResult(ip, true, status, Take(text, SnippetLength))
      else
        ConnectivityResult(ip, false, status, "")
  }

  /** How `test_ip` began: the pinned resolver could not be built (the
      system resolver behind `CustomResolver` needs an optional DNS package
      and raises without it), or it was built and the request had
      `outcome`. On macOS the script builds a resolver that cannot fail,
      so there the attempt is always `Built`. */
  datatype Attempt = ResolverMissing | Built(outcome: ProbeOutcome)

  /** `test_ip` as written: the classification, or `None` when it raises.
      A resolver that could not be built leaves `resolver` unbound, so the
      `finally` clause raises `UnboundLocalError` and replaces the
      `(ip, False, 0, "")` the `except` clause was returning. */
  function TestIp(ip: string, attempt: Attempt): (r: Option<ConnectivityResult>)
    ensures r.None? <==> attempt.ResolverMissing?
    ensures r.Some? ==> r.value == Classify(ip, attempt.outcome)
  {
    match attempt
    case ResolverMissing => None
    case Built(outcome) => Some(Classify(ip, outcome))
  }

  /** A body that carries the marker is at least as long as the marker, so
      a reachable candidate's snippet is always a full twelve characters. */
  lemma {:induction false} ReachableSnippetIsFull(ip: string, outcome: ProbeOutcome)
    requires Classify(ip, outcome).reachable
    ensures |Classify(ip, outcome).snippet| == SnippetLength
  {
    var text := outcome.text;
    var i :| 0 <= i <= |text| && Marker <= text[i..];
    assert |text[i..]| >= |Marker|;
  }
}

=== FILE: geo.dfy ===
/** The geolocation lookup of isdnsok.py (`query_geo`), shaped into one
    record per candidate whatever the service answers. */
module Geo {
  import opened Text
  import opened JsonData

  /** The service's answer: the decoded body, or an exception (network
      error, timeout, undecodable body) carrying its message. */
  datatype GeoResponse = GeoRaised(message: string) | GeoDecoded(data: JsonObject)

  datatype GeoResult = GeoResult(ip: string, country: Json, region: Json, city: Json, isp: Json)

  /** The longest exception message kept in a record. */
  const DiagnosticLength: nat := 50

  const NotAvailable: Json := JStr("N/A")

  /** The country written when the service reports a failure status. */
  const LookupFailed: string := "查询失败"

  /** The country written when the lookup raised. */
  const LookupRaised: string := "查询异常"

  /** `str(KeyError('status'))`, the message when the body has no status. */
  const MissingStatusMessage: string := "'status'"

  /** The record `query_geo` returns for `ip`. */
  function QueryGeo(ip: string, response: GeoResponse): (r: GeoResult)
    ensures r.ip == ip
    // the service answered with status "success": each field, or N/A
    ensures response.GeoDecoded? && "status" in response.data && response.data["status"] == JStr("success") ==>
      && r.country == Get(response.data, "country", NotAvailable)
      && r.region == Get(response.data, "regionName", NotAvailable)
      && r.city == Get(response.data, "city", NotAvailable)
      && r.isp == Get(response.data, "isp", NotAvailable)
    // the service answered with another status: its message as the region
    ensures response.GeoDecoded? && "status" in response.data && response.data["status"] != JStr("success") ==>
      && r.country == JStr(LookupFailed)
      && r.region == Get(response.data, "message", JStr("Unknown error"))
    // the lookup raised, or the body had no status: a bounded diagnostic
    ensures response.GeoRaised? || "status" !in response.data ==>
      && r.country == JStr(LookupRaised)
      && r.region.JStr? && |r.region.str| <= DiagnosticLength
      && r.region.str <= (if response.GeoRaised? then response.message else MissingStatusMessage)
    // ... and it is all of the message up to that bound: `str(e)[:50]`
    ensures response.GeoRaised? || "status" !in response.data ==>
      var m := if response.GeoRaised? then response.message else MissingStatusMessage;
      |r.region.str| == if |m| <= DiagnosticLength then |m| else DiagnosticLength
    // outside the success case nothing is known of city and ISP
    ensures !(response.GeoDecoded? && "status" in response.data && response.data["status"] == JStr("success")) ==>
      r.city == NotAvailable && r.isp == NotAvailable
  {
    match response
    case GeoRaised(message) => Raised(ip, message)
    case GeoDecoded(data) =>
      if "status" !in data then Raised(ip, MissingStatusMessage)
      else if data["status"] == JStr("success") then
        GeoResult(ip, Get(data, "country", NotAvailable), Get(data, "regionName", NotAvailable),
                  Get(data, "city", NotAvailable), Get(data, "isp", NotAvailable))
      else
        GeoResult(ip, JStr(LookupFailed), Get(data, "message", JStr("Unknown error")), NotAvailable, NotAvailable)
  }

  /** The record of the `except` branch. */
  function Raised(ip: string, message: string): GeoResult {
    GeoResult(ip, JStr(LookupRaised), JStr(Take(message, DiagnosticLength)), NotAvailable, NotAvailable)
  }
}

=== FILE: hosts.dfy ===
/** The process-wide address override of tester.py: a table keyed by
    `(host, port)` consulted by a wrapped `getaddrinfo`, which falls back
    to the real resolver for keys not in the table. */
module Hosts {
  import opened Sockets

  /** One `getaddrinfo` answer: family, socket type, protocol, canonical
      name and socket address. */
  datatype AddrInfo = AddrInfo(family: Family, sockType: SockType, proto: int, canonName: string, sockAddr: (string, int))

  /** `etc_hosts`. */
  type HostsTable = map<(string, int), seq<AddrInfo>>

  /** The answer `bind_ip(domain, port, ip)` stores. It is always IPv4. */
  function Pinned(ip: string, port: int): AddrInfo {
    AddrInfo(Inet, Stream, 6, "", (ip, port))
  }

  /** `bind_ip(domain, port, ip)`: binds the key to a single answer. */
  function BindIp(table: HostsTable, domain: string, port: int, ip: string): (t: HostsTable)
    ensures t.Keys == table.Keys + {(domain, port)}
    ensures t[(domain, port)] == [Pinned(ip, port)]
    ensures forall k :: k in table && k != (domain, port) ==> t[k] == table[k]
  {
    table[(domain, port) := [Pinned(ip, port)]]
  }

  /** The wrapped `getaddrinfo(host, port, ...)`: the table's answer for
      `(host, port)`, or the real resolver's. */
  function GetAddrInfo(table: HostsTable, builtin: (string, int) -> seq<AddrInfo>, host: string, port: int): (answer: seq<AddrInfo>)
    ensures (host, port) in table ==> answer == table[(host, port)]
    ensures (host, port) !in table ==> answer == builtin(host, port)
  {
    if (host, port) in table then table[(host, port)] else builtin(host, port)
  }

  /** After a bind, resolving the bound key yields exactly the pinned
      answer, whatever the real resolver would say. */
  lemma BoundKeyResolves(table: HostsTable, builtin: (string, int) -> seq<AddrInfo>, domain: string, port: int, ip: string)
    ensures GetAddrInfo(BindIp(table, domain, port, ip), builtin, domain, port) == [AddrInfo(Inet, Stream, 6, "", (ip, port))]
  {
  }

  /** A bind leaves every other key resolving as before. */
  lemma OtherKeysUntouched(table: HostsTable, builtin: (string, int) -> seq<AddrInfo>, domain: string, port: int, ip: string,
                           host: string, hostPort: int)
    requires (host, hostPort) != (domain, port)
    ensures GetAddrInfo(BindIp(table, domain, port, ip), builtin, host, hostPort) == GetAddrInfo(table, builtin, host, hostPort)
  {
  }

  /** Binding a key again overwrites it: the last bind wins. */
  lemma RebindOverwrites(table: HostsTable, domain: string, port: int, ip1: string, ip2: string)
    ensures BindIp(BindIp(table, domain, port, ip1), domain, port, ip2) == BindIp(table, domain, port, ip2)
  {
  }

  /** With an empty table every lookup reaches the real resolver. */
  lemma EmptyTableFallsThrough(builtin: (string, int) -> seq<AddrInfo>, host: string, port: int)
    ensures GetAddrInfo(map[], builtin, host, port) == builtin(host, port)
  {
  }

  /** The hazard of one shared table: when a second probe binds the same
      domain and port before the first connects, the first probe's
      connection goes to the second probe's address. */
  lemma SharedBindingIsClobbered(table: HostsTable, builtin: (string, int) -> seq<AddrInfo>, domain: string, port: int, ip1: string, ip2: string)
    requires ip1 != ip2
    ensures GetAddrInfo(BindIp(BindIp(table, domain, port, ip1), domain, port, ip2), builtin, domain, port)[0].sockAddr.0 != ip1
  {
    RebindOverwrites(table, domain, port, ip1, ip2);
  }
}

=== FILE: json_data.dfy ===
/** Decoded JSON as the probes see it: a response body becomes an object
    mapping field names to scalar values, and `dict.get(key, default)`
    reads it. */
module JsonData {

  /** A scalar JSON value. Numbers are kept exact. */
  datatype Json = JStr(str: string) | JNum(num: real) | JBool(b: bool) | JNull

  type JsonObject = map<string, Json>

  /** `data.get(key, default)`. */
  function Get(data: JsonObject, key: string, default: Json): Json {
    if key in data then data[key] else default
  }

  /** Python truthiness of a decoded value (`not v` is its negation). */
  predicate Truthy(v: Json) {
    match v
    case JStr(s) => s != ""
    case JNum(n) => n != 0.0
    case JBool(b) => b
    case JNull => false
  }
}

=== FILE: location.dfy ===
/** The geolocation lookup of tester.py (`get_ip_location`), including the
    normalisation of Chinese region names in the country field. */
module Location {
  import opened Wrappers
  import opened JsonData

  /** `country_mapping`. */
  const CountryMapping: map<string, string> := map[
    "香港" := "中国（香港）",
    "香港特别行政区" := "中国（香港）",
    "台湾" := "中国（台湾）",
    "中華民國" := "中国（台湾）",
    "澳门" := "中国（澳门）",
    "澳門" := "中国（澳门）",
    "澳门特别行政区" := "中国（澳门）"]

  /** The text used for every unknown field. */
  const UnknownText: string := "未知"

  /** No normalised name is itself a name to normalise. */
  lemma MappingValuesAreNotKeys()
    ensures forall k :: k in CountryMapping ==> CountryMapping[k] !in CountryMapping
  {
    forall k | k in CountryMapping ensures CountryMapping[k] !in CountryMapping {
      assert CountryMapping[k] in {"中国（香港）", "中国（台湾）", "中国（澳门）"};
    }
  }

  /** `country_mapping.get(country, country)`. */
  function NormalizeCountry(country: Json): (r: Json)
    ensures country.JStr? && country.str in CountryMapping ==> r == JStr(CountryMapping[country.str])
    ensures !(country.JStr? && country.str in CountryMapping) ==> r == country
  {
    if country.JStr? && country.str in CountryMapping then JStr(CountryMapping[country.str]) else country
  }

  /** Normalising twice is normalising once. */
  lemma NormalizeIdempotent(country: Json)
    ensures NormalizeCountry(NormalizeCountry(country)) == NormalizeCountry(country)
  {
    MappingValuesAreNotKeys();
  }

  /** The service's answer: an exception the function catches (a network
      error, a timeout, or a body not declared as JSON), or the HTTP status
      and the body as `response.json()` decodes it: `None` when the body is
      not JSON or is JSON but not an object. */
  datatype LocationResponse = LocationRaised | LocationReplied(status: int, data: Option<JsonObject>)

  datatype LocationInfo = LocationInfo(country: Json, region: Json, city: Json)

  const UnknownLocation: LocationInfo := LocationInfo(JStr(UnknownText), JStr(UnknownText), JStr(UnknownText))

  /** The lookup succeeded: status 200, an object, and `status` is `success`. */
  predicate Succeeded(response: LocationResponse) {
    && response.LocationReplied? && response.status == 200 && response.data.Some?
    && Get(response.data.value, "status", JNull) == JStr("success")
  }

  /** The location `get_ip_location` returns, or `None` when it raises: a
      200 answer whose body does not decode to an object makes
      `response.json()` or `data.get` raise an error the `except` clause
      does not catch. */
  function GetIpLocation(response: LocationResponse): (r: Option<LocationInfo>)
    ensures r.None? <==> response.LocationReplied? && response.status == 200 && response.data.None?
    ensures Succeeded(response) ==>
      var data := response.data.value;
      && r.Some?
      && r.value.country == NormalizeCountry(Get(data, "country", JStr(UnknownText)))
      && r.value.region == Get(data, "regionName", JStr(UnknownText))
      && r.value.city == Get(data, "city", JStr(UnknownText))
    ensures r.Some? && !Succeeded(response) ==> r.value == UnknownLocation
  {
    match response
    case LocationRaised => Some(UnknownLocation)
    case LocationReplied(status, data) =>
      if status != 200 then Some(UnknownLocation)
      else if data.None? then None
      else if Get(data.value, "status", JNull) == JStr("success") then
        Some(LocationInfo(NormalizeCountry(Get(data.value, "country", JStr(UnknownText))),
                          Get(data.value, "regionName", JStr(UnknownText)), Get(data.value, "city", JStr(UnknownText))))
      else
        Some(UnknownLocation)
  }

  /** A reported country never comes back as a name the table would still
      rewrite. */
  lemma LocationCountryIsNormal(response: LocationResponse)
    ensures GetIpLocation(response).Some? ==>
              NormalizeCountry(GetIpLocation(response).value.country) == GetIpLocation(response).value.country
  {
    if Succeeded(response) {
      NormalizeIdempotent(Get(response.data.value, "country", JStr(UnknownText)));
    } else {
      assert UnknownText !in CountryMapping;
    }
  }
}

=== FILE: ping.dfy ===
/** Latency measurement: `ping_ip` of isdnsok.py and `test_latency` of
    tester.py. The echo readings are inputs; each is what one call of the
    ICMP library produced. */
module Ping {
  import opened Wrappers
  import opened Text

  /** A measured mean round trip, or none measured (`float('inf')`). */
  datatype Latency = Finite(ms: real) | Unmeasured

  /** One call of the ICMP library: a delay, `None` (timed out), `False`
      (an error such as an unreachable or unknown host), or an exception. */
  datatype Echo = Reply(delay: real) | Timeout | Failed | Raised

  /** The delays of the successful echoes, in order. */
  function Delays(echoes: seq<Echo>): (ds: seq<real>)
    ensures |ds| <= |echoes|
    ensures |ds| == 0 <==> forall i :: 0 <= i < |echoes| ==> !echoes[i].Reply?
  {
    if |echoes| == 0 then []
    else (if echoes[0].Reply? then [echoes[0].delay] else []) + Delays(echoes[1..])
  }

  /** The collected delays are exactly the delays of the replies: nothing
      else is collected and no reply is missed. */
  lemma {:induction false} DelaysMembers(echoes: seq<Echo>)
    ensures forall x :: x in Delays(echoes) <==> exists i :: 0 <= i < |echoes| && echoes[i] == Reply(x)
    decreases |echoes|
  {
    if |echoes| > 0 {
      var tail := echoes[1..];
      DelaysMembers(tail);
      var h := if echoes[0].Reply? then [echoes[0].delay] else [];
      assert Delays(echoes) == h + Delays(tail);
      forall x ensures x in Delays(echoes) <==> exists i :: 0 <= i < |echoes| && echoes[i] == Reply(x) {
        if x in Delays(tail) {
          var i :| 0 <= i < |tail| && tail[i] == Reply(x);
          assert echoes[i + 1] == Reply(x);
        }
        if exists i :: 0 <= i < |echoes| && echoes[i] == Reply(x) {
          var i :| 0 <= i < |echoes| && echoes[i] == Reply(x);
          if i > 0 {
            assert tail[i - 1] == Reply(x);
          }
        }
      }
    }
  }

  /** `sum(xs)`. */
  function Sum(xs: seq<real>): real {
    if |xs| == 0 then 0.0 else xs[0] + Sum(xs[1..])
  }

  /** `sum(xs) / len(xs)`, also `statistics.mean(xs)`. */
  function Mean(xs: seq<real>): real
    requires |xs| > 0
  {
    Sum(xs) / (|xs| as real)
  }

  /** `ping_ip`: the mean of the successful echoes, or infinity when none
      succeeded or the library raised (the loop is left at the first
      exception). Failed echoes are not counted; see `PingIpAsWritten`. */
  function PingIp(echoes: seq<Echo>): (r: Latency)
    ensures r.Unmeasured? <==> Raised in echoes || forall i :: 0 <= i < |echoes| ==> !echoes[i].Reply?
  {
    if Raised in echoes then Unmeasured
    else
      var ds := Delays(echoes);
      if |ds| == 0 then Unmeasured else Finite(Mean(ds))
  }

  /** `test_latency` (delays read in seconds, reported in milliseconds):
      `None` exactly when no echo succeeded; an exception only loses its
      own echo. Failed echoes are not counted; see `TestLatencyAsWritten`. */
  function TestLatency(echoes: seq<Echo>): (r: Option<real>)
    ensures r.None? <==> forall i :: 0 <= i < |echoes| ==> !echoes[i].Reply?
  {
    var ds := Scale(Delays(echoes), 1000.0);
    if |ds| == 0 then None else Some(Mean(ds))
  }

  /** `[x * k for x in xs]`. */
  function Scale(xs: seq<real>, k: real): (ys: seq<real>)
    ensures |ys| == |xs|
    ensures forall i :: 0 <= i < |xs| ==> ys[i] == xs[i] * k
  {
    if |xs| == 0 then [] else [xs[0] * k] + Scale(xs[1..], k)
  }

  /** The target `ping_ip` hands to the library: IPv6 literals lose any
      surrounding brackets (`ip.strip("[]")`). */
  function PingTarget(ip: string): string {
    if ':' in ip then StripChars(ip, Brackets) else ip
  }

  const Brackets: set<char> := {'[', ']'}

  /** An address without `:` is pinged as given. Otherwise the target is
      the stretch of the address starting at offset `a`; it neither starts
      nor ends with a bracket, and only brackets were cut off around it. */
  lemma PingTargetTrims(ip: string) returns (a: nat)
    ensures ':' !in ip ==> PingTarget(ip) == ip && a == 0
    ensures ':' in ip ==>
              var t := PingTarget(ip);
              && (|t| > 0 ==> t[0] !in Brackets && t[|t| - 1] !in Brackets)
              && a + |t| <= |ip| && t == ip[a..a + |t|]
              && (forall i :: 0 <= i < a ==> ip[i] in Brackets)
              && (forall i :: a + |t| <= i < |ip| ==> ip[i] in Brackets)
  {
    a := 0;
    if ':' in ip {
      var l := StripLeft(ip, Brackets);
      StripLeftDrops(ip, Brackets);
      StripRightDrops(l, Brackets);
      var t := StripRight(l, Brackets);
      a := |ip| - |l|;
      assert t == l[..|t|];
      assert ip[a..a + |t|] == t;
      forall i | a + |t| <= i < |ip| ensures ip[i] in Brackets {
        assert l[i - a] == ip[i];
      }
    }
  }

  lemma {:induction false} DelaysAppend(a: seq<Echo>, b: seq<Echo>)
    ensures Delays(a + b) == Delays(a) + Delays(b)
    decreases |a|
  {
    if |a| > 0 {
      assert (a + b)[0] == a[0];
      assert (a + b)[1..] == a[1..] + b;
      DelaysAppend(a[1..], b);
      var h := if a[0].Reply? then [a[0].delay] else [];
      assert Delays(a + b) == h + (Delays(a[1..]) + Delays(b));
      assert Delays(a) == h + Delays(a[1..]);
    } else {
      assert a + b == b;
    }
  }

  lemma {:induction false} SumAppend(a: seq<real>, b: seq<real>)
    ensures Sum(a + b) == Sum(a) + Sum(b)
    decreases |a|
  {
    if |a| > 0 {
      assert (a + b)[0] == a[0];
      assert (a + b)[1..] == a[1..] + b;
      SumAppend(a[1..], b);
    } else {
      assert a + b == b;
    }
  }

  lemma {:induction false} SumScale(xs: seq<real>, k: real)
    ensures Sum(Scale(xs, k)) == k * Sum(xs)
    decreases |xs|
  {
    if |xs| > 0 {
      var tail := Scale(xs[1..], k);
      assert Scale(xs, k) == [xs[0] * k] + tail;
      assert ([xs[0] * k] + tail)[1..] == tail;
      SumScale(xs[1..], k);
      Distribute(k, xs[0], Sum(xs[1..]));
    }
  }

  /** Scaling every value scales the mean alike. */
  lemma MeanScale(xs: seq<real>, k: real)
    requires |xs| > 0
    ensures Mean(Scale(xs, k)) == k * Mean(xs)
  {
    var ys := Scale(xs, k);
    var n, total := |xs| as real, Sum(xs);
    SumScale(xs, k);
    assert Sum(ys) == k * total;
    assert Mean(ys) == Sum(ys) / n;
    ScaleQuotient(k, total, n);
    assert Mean(ys) == k * (total / n);
  }

  lemma ScaleQuotient(k: real, s: real, n: real)
    requires n > 0.0
    ensures (k * s) / n == k * (s / n)
  {
  }

  lemma Distribute(k: real, a: real, b: real)
    ensures a * k + k * b == k * (a + b)
  {
  }

  /** A sum of values that all lie in `[lo, hi]` lies in `[n*lo, n*hi]`. */
  lemma {:induction false} SumBounds(xs: seq<real>, lo: real, hi: real)
    requires forall i :: 0 <= i < |xs| ==> lo <= xs[i] <= hi
    ensures (|xs| as real) * lo <= Sum(xs) <= (|xs| as real) * hi
    decreases |xs|
  {
    if |xs| > 0 {
      SumBounds(xs[1..], lo, hi);
    }
  }

  /** A failed or timed-out echo is not a measurement: adding one changes
      neither average. */
  lemma {:induction false} FailedEchoIgnored(a: seq<Echo>, b: seq<Echo>, e: Echo)
    requires e == Timeout || e == Failed
    ensures PingIp(a + [e] + b) == PingIp(a + b)
    ensures TestLatency(a + [e] + b) == TestLatency(a + b)
  {
    DelaysAppend(a + [e], b);
    DelaysAppend(a, [e]);
    DelaysAppend(a, b);
    assert Delays([e]) == [];
    assert Delays(a + [e] + b) == Delays(a + b);
    assert Raised in a + [e] + b <==> Raised in a + b;
  }

  /** An exception ends `ping_ip` with infinity, but `test_latency` catches
      it inside the loop, so it only loses its own echo. */
  lemma {:induction false} RaisedEchoEffects(a: seq<Echo>, b: seq<Echo>)
    ensures PingIp(a + [Raised] + b) == Unmeasured
    ensures TestLatency(a + [Raised] + b) == TestLatency(a + b)
  {
    DelaysAppend(a + [Raised], b);
    DelaysAppend(a, [Raised]);
    DelaysAppend(a, b);
    assert Delays([Raised]) == [];
    assert Delays(a + [Raised] + b) == Delays(a + b);
    assert (a + [Raised] + b)[|a|] == Raised;
  }

  /** The average lies between the fastest and the slowest successful
      echo. */
  lemma {:induction false} PingWithinObservedRange(echoes: seq<Echo>, lo: real, hi: real)
    requires forall i :: 0 <= i < |echoes| && echoes[i].Reply? ==> lo <= echoes[i].delay <= hi
    requires PingIp(echoes).Finite?
    ensures lo <= PingIp(echoes).ms <= hi
  {
    var ds := Delays(echoes);
    assert Raised !in echoes && |ds| > 0;
    assert PingIp(echoes).ms == Sum(ds) / (|ds| as real);
    DelaysWithin(echoes, lo, hi);
    SumBounds(ds, lo, hi);
    DivideBounds(Sum(ds), |ds| as real, lo, hi);
  }

  lemma DivideBounds(s: real, n: real, lo: real, hi: real)
    requires n > 0.0 && n * lo <= s <= n * hi
    ensures lo <= s / n <= hi
  {
  }

  lemma {:induction false} DelaysWithin(echoes: seq<Echo>, lo: real, hi: real)
    requires forall i :: 0 <= i < |echoes| && echoes[i].Reply? ==> lo <= echoes[i].delay <= hi
    ensures forall i :: 0 <= i < |Delays(echoes)| ==> lo <= Delays(echoes)[i] <= hi
    decreases |echoes|
  {
    if |echoes| > 0 {
      DelaysWithin(echoes[1..], lo, hi);
    }
  }

  /** Four attempts with replies of 10, 20 and 30 ms and one lost echo
      average to 20 ms. */
  lemma MeanOfRepliesOnly()
    ensures PingIp([Reply(10.0), Reply(20.0), Timeout, Reply(30.0)]) == Finite(20.0)
  {
    var e := [Reply(10.0), Reply(20.0), Timeout, Reply(30.0)];
    assert e[1..][1..][1..][1..] == [];
    assert Delays(e) == [10.0, 20.0, 30.0];
    assert Sum([10.0, 20.0, 30.0]) == 60.0;
  }

  /** The two scripts agree on the same readings when nothing raises: one
      reports a mean, the other the same mean times 1000 (seconds read,
      milliseconds reported). */
  lemma {:induction false} LatencyVariantsAgree(echoes: seq<Echo>)
    requires Raised !in echoes
    ensures PingIp(echoes).Unmeasured? <==> TestLatency(echoes).None?
    ensures PingIp(echoes).Finite? ==> TestLatency(echoes) == Some(1000.0 * PingIp(echoes).ms)
  {
    var ds := Delays(echoes);
    if |ds| > 0 {
      MeanScale(ds, 1000.0);
    }
  }

  // ---- The readings as the scripts record them ----

  /** What `if delay is not None: delays.append(delay)` keeps: the
      library's `False` is kept and sums as 0. With no failed echo it is
      exactly the successful delays. */
  function RecordedAsWritten(echoes: seq<Echo>): (ds: seq<real>)
    ensures |ds| == 0 <==> forall i :: 0 <= i < |echoes| ==> !echoes[i].Reply? && !echoes[i].Failed?
    ensures Failed !in echoes ==> ds == Delays(echoes)
  {
    if |echoes| == 0 then []
    else
      assert Failed !in echoes ==> Failed !in echoes[1..];
      (match echoes[0]
       case Reply(d) => [d]
       case Failed => [0.0]
       case _ => []) + RecordedAsWritten(echoes[1..])
  }

  /** `ping_ip` as written: a failed echo counts as a 0 ms success, so the
      result is infinite only when nothing replied or failed; without
      failed echoes it agrees with `PingIp`. */
  function PingIpAsWritten(echoes: seq<Echo>): (r: Latency)
    ensures r.Unmeasured? <==> Raised in echoes || forall i :: 0 <= i < |echoes| ==> !echoes[i].Reply? && !echoes[i].Failed?
    ensures Failed !in echoes ==> r == PingIp(echoes)
  {
    if Raised in echoes then Unmeasured
    else
      var ds := RecordedAsWritten(echoes);
      if |ds| == 0 then Unmeasured else Finite(Mean(ds))
  }

  /** `test_latency` as written: a failed echo counts as a 0 ms success;
      without failed echoes it agrees with `TestLatency`. */
  function TestLatencyAsWritten(echoes: seq<Echo>): (r: Option<real>)
    ensures r.None? <==> forall i :: 0 <= i < |echoes| ==> !echoes[i].Reply? && !echoes[i].Failed?
    ensures Failed !in echoes ==> r == TestLatency(echoes)
  {
    var ds := Scale(RecordedAsWritten(echoes), 1000.0);
    if |ds| == 0 then None else Some(Mean(ds))
  }

  /** As written, every failed echo is recorded as a 0 ms delay. */
  lemma {:induction false} FailedRecordedAsZero(echoes: seq<Echo>)
    requires forall i :: 0 <= i < |echoes| ==> echoes[i] == Failed
    ensures |RecordedAsWritten(echoes)| == |echoes|
    ensures Sum(RecordedAsWritten(echoes)) == 0.0
    decreases |echoes|
  {
    if |echoes| > 0 {
      FailedRecordedAsZero(echoes[1..]);
      assert RecordedAsWritten(echoes) == [0.0] + RecordedAsWritten(echoes[1..]);
    }
  }

  /** An address whose every echo fails is ranked as a 0 ms host by the
      scripts as written, while no echo came back at all. */
  lemma AllFailedReadsAsZero(echoes: seq<Echo>)
    requires |echoes| > 0 && forall i :: 0 <= i < |echoes| ==> echoes[i] == Failed
    ensures PingIpAsWritten(echoes) == Finite(0.0)
    ensures PingIp(echoes) == Unmeasured
    ensures TestLatencyAsWritten(echoes) == Some(0.0)
    ensures TestLatency(echoes) == None
  {
    var ds := RecordedAsWritten(echoes);
    FailedRecordedAsZero(echoes);
    assert Mean(ds) == 0.0;
    MeanScale(ds, 1000.0);
  }
}

=== FILE: pipeline.dfy ===
/** The run of isdnsok.py (`main`): probe every candidate, enrich the
    reachable ones in rate-limited batches, merge the results into one
    record per geolocation result, and rank by latency. */
module Pipeline {
  import opened Wrappers
  import opened JsonData
  import opened Connectivity
  import opened Geo
  import opened Proxy
  import opened Ping
  import opened Colo
  import opened Ranking
  import opened Batching

  /** Candidates per enrichment batch (45 geolocation requests a minute). */
  const BatchSize: nat := 9

  /** What the connectivity stage remembers of a candidate (`ip_info`). */
  datatype Info = Info(status: int, responseText: string)

  /** One merged row. */
  datatype CombinedRecord = CombinedRecord(
    ip: string, status: int, responseText: string,
    country: Json, region: Json, city: Json, isp: Json,
    proxyAvailable: Json, proxyPort: Json, coloCode: Json, coloName: string, responseTime: Json,
    pingDelay: Latency)

  /** The result of a run. */
  datatype RunOutcome =
    | NoCandidates                       // the candidate list is empty
    | ProbeCrashed                       // a connectivity probe raised
    | NoWorkingIps                       // no candidate is reachable
    | Aborted                            // the datacenter lookup raised
    | Ranked(records: seq<CombinedRecord>)

  /** `working_ips`: the reachable candidates, in probe order. */
  function WorkingIps(results: seq<ConnectivityResult>): (ips: seq<string>)
    ensures |ips| <= |results|
    ensures forall ip :: ip in ips <==> exists r :: r in results && r.reachable && r.ip == ip
  {
    if |results| == 0 then []
    else
      assert forall r :: r in results <==> r == results[0] || r in results[1..];
      (if results[0].reachable then [results[0].ip] else []) + WorkingIps(results[1..])
  }

  /** `working_ips` is built by appending in probe order: it keeps the
      order and the repetitions of the reachable results. */
  lemma {:induction false} WorkingIpsAppend(a: seq<ConnectivityResult>, b: seq<ConnectivityResult>)
    ensures WorkingIps(a + b) == WorkingIps(a) + WorkingIps(b)
    decreases |a|
  {
    if |a| == 0 {
      assert a + b == b;
    } else {
      var head := if a[0].reachable then [a[0].ip] else [];
      assert (a + b)[0] == a[0];
      assert (a + b)[1..] == a[1..] + b;
      assert WorkingIps(a + b) == head + WorkingIps(a[1..] + b);
      assert WorkingIps(a) == head + WorkingIps(a[1..]);
      WorkingIpsAppend(a[1..], b);
    }
  }

  /** One result contributes its ip exactly when it was reachable. */
  lemma WorkingIpsSingle(r: ConnectivityResult)
    ensures WorkingIps([r]) == if r.reachable then [r.ip] else []
  {
    assert [r][1..] == [];
  }

  /** No later result in `results` has the ip of `results[i]`. */
  ghost predicate LastFor(results: seq<ConnectivityResult>, i: int)
    requires 0 <= i < |results|
  {
    forall j :: i < j < |results| ==> results[j].ip != results[i].ip
  }

  /** `ip_info`, filled in probe order, so the last result for an ip wins. */
  function IpInfo(results: seq<ConnectivityResult>): (info: map<string, Info>)
    ensures forall ip :: ip in info <==> exists r :: r in results && r.ip == ip
    ensures forall i :: 0 <= i < |results| && LastFor(results, i) ==>
              info[results[i].ip] == Info(results[i].status, results[i].snippet)
  {
    if |results| == 0 then map[]
    else
      var n := |results| - 1;
      var last := results[n];
      var before := IpInfo(results[..n]);
      var info := before[last.ip := Info(last.status, last.snippet)];
      assert results == results[..n] + [last];
      assert forall r :: r in results <==> r == last || r in results[..n];
      forall i | 0 <= i < n && LastFor(results, i)
        ensures info[results[i].ip] == Info(results[i].status, results[i].snippet)
      {
        assert results[..n][i] == results[i];
        assert LastFor(results[..n], i);
      }
      info
  }

  /** `next((p for p in proxy_results if p['ip'] == ip), None)`. */
  function FindProxy(ip: string, proxies: seq<ProxyResult>): (found: Option<ProxyResult>)
    ensures found.None? <==> forall k :: 0 <= k < |proxies| ==> proxies[k].ip != ip
    ensures found.Some? ==> exists k :: 0 <= k < |proxies| && proxies[k] == found.value && found.value.ip == ip
                                        && forall j :: 0 <= j < k ==> proxies[j].ip != ip
  {
    if |proxies| == 0 then None
    else if proxies[0].ip == ip then Some(proxies[0])
    else
      var rest := FindProxy(ip, proxies[1..]);
      assert forall k :: 1 <= k < |proxies| ==> proxies[k] == proxies[1..][k - 1];
      if rest.Some? then
        var k :| 0 <= k < |proxies[1..]| && proxies[1..][k] == rest.value && rest.value.ip == ip
                 && forall j :: 0 <= j < k ==> proxies[1..][j].ip != ip;
        assert proxies[k + 1] == rest.value;
        rest
      else rest
  }

  /** The proxy fields a record gets: the first proxy result for its ip,
      or the failure defaults when there is none. */
  function ProxyFor(ip: string, proxies: seq<ProxyResult>): ProxyResult {
    FindProxy(ip, proxies).GetOr(Unavailable(ip))
  }

  /** `r` is the row `main` builds for `geo`: the geolocation fields, the
      connectivity status and snippet when recorded (0 and "" otherwise),
      the fields of the first proxy result for the ip (or the failure
      defaults), the datacenter name, and the latency of `echoes`. */
  ghost predicate RowFor(r: CombinedRecord, geo: GeoResult, proxies: seq<ProxyResult>, info: map<string, Info>,
                         mapping: map<string, string>, echoes: seq<Echo>)
  {
    var p := ProxyFor(geo.ip, proxies);
    && r.ip == geo.ip
    && r.country == geo.country && r.region == geo.region && r.city == geo.city && r.isp == geo.isp
    && (geo.ip in info ==> r.status == info[geo.ip].status && r.responseText == info[geo.ip].responseText)
    && (geo.ip !in info ==> r.status == 0 && r.responseText == "")
    && r.proxyAvailable == p.available && r.proxyPort == p.port && r.coloCode == p.colo
    && r.responseTime == p.responseTime
    && Some(r.coloName) == ColoName(p.colo, mapping)
    && r.pingDelay == PingIp(echoes)
  }

  /** The datacenter lookup for this result's proxy record raises (a
      truthy colo that is not a string). */
  predicate ColoRaises(geo: GeoResult, proxies: seq<ProxyResult>, mapping: map<string, string>) {
    ColoName(ProxyFor(geo.ip, proxies).colo, mapping).None?
  }

  /** The merged row for one geolocation result, or `None` when the
      datacenter lookup raises. */
  function Combine(geo: GeoResult, proxies: seq<ProxyResult>, info: map<string, Info>,
                   mapping: map<string, string>, echoes: seq<Echo>): (row: Option<CombinedRecord>)
    ensures row.None? <==> ColoRaises(geo, proxies, mapping)
    ensures row.Some? ==> RowFor(row.value, geo, proxies, info, mapping, echoes)
  {
    var proxy := ProxyFor(geo.ip, proxies);
    var known := if geo.ip in info then info[geo.ip] else Info(0, "");
    match ColoName(proxy.colo, mapping)
    case None => None
    case Some(name) =>
      Some(CombinedRecord(geo.ip, known.status, known.responseText,
                          geo.country, geo.region, geo.city, geo.isp,
                          proxy.available, proxy.port, proxy.colo, name, proxy.responseTime,
                          PingIp(echoes)))
  }

  /** `combined_results`: one row per geolocation result, in order;
      `echoesOf` gives the echo readings of the latency probe run for an
      ip. The run aborts when any datacenter lookup raises. */
  function Merge(geos: seq<GeoResult>, proxies: seq<ProxyResult>, info: map<string, Info>,
                 mapping: map<string, string>, echoesOf: string -> seq<Echo>): (merged: Option<seq<CombinedRecord>>)
    ensures merged.None? <==> exists i :: 0 <= i < |geos| && ColoRaises(geos[i], proxies, mapping)
    ensures merged.Some? ==> |merged.value| == |geos|
    ensures merged.Some? ==> forall i :: 0 <= i < |geos| ==>
              RowFor(merged.value[i], geos[i], proxies, info, mapping, echoesOf(geos[i].ip))
  {
    if |geos| == 0 then Some([])
    else
      match Combine(geos[0], proxies, info, mapping, echoesOf(geos[0].ip))
      case None => None
      case Some(first) =>
        match Merge(geos[1..], proxies, info, mapping, echoesOf)
        case None =>
          var i :| 0 <= i < |geos[1..]| && ColoRaises(geos[1..][i], proxies, mapping);
          assert geos[i + 1] == geos[1..][i];
          None
        case Some(rest) =>
          MergeCons(first, rest, geos, proxies, info, mapping, echoesOf);
          Some([first] + rest)
  }

  lemma MergeCons(first: CombinedRecord, rest: seq<CombinedRecord>, geos: seq<GeoResult>, proxies: seq<ProxyResult>,
                  info: map<string, Info>, mapping: map<string, string>, echoesOf: string -> seq<Echo>)
    requires |geos| > 0 && |rest| == |geos| - 1
    requires RowFor(first, geos[0], proxies, info, mapping, echoesOf(geos[0].ip))
    requires forall i :: 0 <= i < |rest| ==> RowFor(rest[i], geos[1..][i], proxies, info, mapping, echoesOf(geos[1..][i].ip))
    ensures forall i :: 0 <= i < |geos| ==>
              RowFor(([first] + rest)[i], geos[i], proxies, info, mapping, echoesOf(geos[i].ip))
  {
    forall i | 0 <= i < |geos|
      ensures RowFor(([first] + rest)[i], geos[i], proxies, info, mapping, echoesOf(geos[i].ip))
    {
      if i > 0 {
        assert ([first] + rest)[i] == rest[i - 1];
        assert geos[i] == geos[1..][i - 1];
      }
    }
  }

  /** The ranking key: `ping_delay`, infinity for an unmeasured one. */
  function DelayOf(r: CombinedRecord): Latency {
    r.pingDelay
  }

  /** Some candidate's `test_ip` raises, which `asyncio.gather` passes on
      and which ends `main`. */
  ghost predicate ProbeCrashes(attempts: seq<Attempt>) {
    exists i :: 0 <= i < |attempts| && attempts[i].ResolverMissing?
  }

  /** The connectivity stage: every candidate probed, in order, or `None`
      when some probe raises. `attempts[i]` is what the probe task of
      `ipList[i]` met; a candidate listed twice is probed twice and may
      meet two different answers. */
  function ClassifyAll(ipList: seq<string>, attempts: seq<Attempt>): (results: Option<seq<ConnectivityResult>>)
    requires |attempts| == |ipList|
    ensures results.None? <==> ProbeCrashes(attempts)
    ensures results.Some? ==> |results.value| == |ipList|
    ensures results.Some? ==> forall i :: 0 <= i < |ipList| ==>
              results.value[i] == Classify(ipList[i], attempts[i].outcome)
  {
    if |ipList| == 0 then Some([])
    else
      match TestIp(ipList[0], attempts[0])
      case None => None
      case Some(first) =>
        match ClassifyAll(ipList[1..], attempts[1..])
        case None =>
          var i :| 0 <= i < |attempts[1..]| && attempts[1..][i].ResolverMissing?;
          assert attempts[i + 1] == attempts[1..][i];
          None
        case Some(rest) =>
          assert forall i :: 1 <= i < |ipList| ==> ipList[i] == ipList[1..][i - 1] && attempts[i] == attempts[1..][i - 1];
          Some([first] + rest)
  }

  /** A candidate listed twice is probed twice. When the first probe
      succeeds and the second fails, the address is working, but `ip_info`
      keeps the later failure: its row carries the failing status and an
      empty response text. */
  lemma RepeatedCandidateLastProbeWins(ip: string, good: Attempt, bad: Attempt)
    requires good.Built? && Classify(ip, good.outcome).reachable
    requires bad.Built? && !Classify(ip, bad.outcome).reachable
    ensures ClassifyAll([ip, ip], [good, bad]).Some?
    ensures WorkingIps(ClassifyAll([ip, ip], [good, bad]).value) == [ip]
    ensures IpInfo(ClassifyAll([ip, ip], [good, bad]).value)[ip] == Info(Classify(ip, bad.outcome).status, "")
  {
    var results := ClassifyAll([ip, ip], [good, bad]).value;
    assert results == [Classify(ip, good.outcome), Classify(ip, bad.outcome)];
    WorkingIpsAppend([results[0]], [results[1]]);
    WorkingIpsSingle(results[0]);
    WorkingIpsSingle(results[1]);
    assert results == [results[0]] + [results[1]];
    assert LastFor(results, 1);
  }

  /** The ips of a sequence of records, in order. */
  function IpsOf(records: seq<CombinedRecord>): (ips: seq<string>)
    ensures |ips| == |records|
    ensures forall i :: 0 <= i < |records| ==> ips[i] == records[i].ip
  {
    seq(|records|, i requires 0 <= i < |records| => records[i].ip)
  }

  /** The geolocation stage's per-ip step. */
  function GeoProbe(geoOf: string -> GeoResponse): string -> GeoResult {
    ip => QueryGeo(ip, geoOf(ip))
  }

  /** The proxy stage's per-ip step. */
  function ProxyProbe(proxyOf: string -> ProxyResponse, readJson: (string, string) -> Option<JsonObject>,
                      loads: string -> Option<JsonObject>): string -> ProxyResult {
    ip => CheckProxy(ip, proxyOf(ip), readJson, loads)
  }

  /** The whole run. `attempts` gives what each candidate's connectivity
      probe met, by position; `geoOf`, `proxyOf` and `echoesOf` give what
      the network answers for an ip; `readJson` and `loads` are the two
      JSON parsers of `check_proxy`. The two step traces are the enrichment
      stages' batches and pauses. */
  method Run(ipList: seq<string>, attempts: seq<Attempt>, geoOf: string -> GeoResponse,
             proxyOf: string -> ProxyResponse, readJson: (string, string) -> Option<JsonObject>,
             loads: string -> Option<JsonObject>, echoesOf: string -> seq<Echo>, mapping: map<string, string>)
    returns (outcome: RunOutcome, geoSteps: seq<Step<string>>, proxySteps: seq<Step<string>>)
    requires |attempts| == |ipList|
    ensures outcome.NoCandidates? <==> ipList == []
    ensures outcome.ProbeCrashed? <==> ProbeCrashes(attempts)
    ensures outcome.NoWorkingIps? <==>
              ipList != [] && !ProbeCrashes(attempts) &&
              forall i :: 0 <= i < |ipList| ==> !Classify(ipList[i], attempts[i].outcome).reachable
    ensures var results := ClassifyAll(ipList, attempts);
            results.Some? ==>
              var working := WorkingIps(results.value);
              var geos := MapSeq(GeoProbe(geoOf), working);
              var proxies := MapSeq(ProxyProbe(proxyOf, readJson, loads), working);
              var merged := Merge(geos, proxies, IpInfo(results.value), mapping, echoesOf);
              && (outcome.Aborted? <==> working != [] && merged.None?)
              && (outcome.Ranked? ==> merged.Some? && outcome.records == SortByLatency(merged.value, DelayOf))
              && (outcome.Ranked? ==> multiset(IpsOf(outcome.records)) == multiset(working))
              && (outcome.Ranked? || outcome.Aborted? ==>
                    geoSteps == Schedule(Batches(working, BatchSize)) && proxySteps == geoSteps)
  {
    geoSteps, proxySteps := [], [];
    if ipList == [] {
      return NoCandidates, geoSteps, proxySteps;
    }
    var classified := ClassifyAll(ipList, attempts);
    if classified.None? {
      return ProbeCrashed, geoSteps, proxySteps;
    }
    var results := classified.value;
    var working := WorkingIps(results);
    NoWorkingIff(ipList, attempts);
    if working == [] {
      return NoWorkingIps, geoSteps, proxySteps;
    }
    var info := IpInfo(results);
    var geos, proxies;
    geos, geoSteps := RunStage(working, BatchSize, GeoProbe(geoOf));
    proxies, proxySteps := RunStage(working, BatchSize, ProxyProbe(proxyOf, readJson, loads));
    var merged := Merge(geos, proxies, info, mapping, echoesOf);
    if merged.None? {
      return Aborted, geoSteps, proxySteps;
    }
    var ranked := SortByLatency(merged.value, DelayOf);
    MergeKeepsIps(working, geoOf, proxies, info, mapping, echoesOf);
    PermutedIps(merged.value, ranked);
    outcome := Ranked(ranked);
  }

  /** Without a crash, nobody is reachable exactly when every probe failed. */
  lemma NoWorkingIff(ipList: seq<string>, attempts: seq<Attempt>)
    requires |attempts| == |ipList| && !ProbeCrashes(attempts)
    ensures ClassifyAll(ipList, attempts).Some?
    ensures WorkingIps(ClassifyAll(ipList, attempts).value) == [] <==>
              forall i :: 0 <= i < |ipList| ==> !Classify(ipList[i], attempts[i].outcome).reachable
  {
    var results := ClassifyAll(ipList, attempts).value;
    var working := WorkingIps(results);
    if working == [] {
      forall i | 0 <= i < |ipList| ensures !Classify(ipList[i], attempts[i].outcome).reachable {
        assert results[i] in results && results[i].ip !in working;
      }
    } else {
      assert working[0] in working;
    }
  }

  /** The merged records carry the working ips, in order. */
  lemma MergeKeepsIps(working: seq<string>, geoOf: string -> GeoResponse, proxies: seq<ProxyResult>,
                      info: map<string, Info>, mapping: map<string, string>, echoesOf: string -> seq<Echo>)
    ensures var merged := Merge(MapSeq(GeoProbe(geoOf), working), proxies, info, mapping, echoesOf);
            merged.Some? ==> IpsOf(merged.value) == working
  {
    var geos := MapSeq(GeoProbe(geoOf), working);
    var merged := Merge(geos, proxies, info, mapping, echoesOf);
    if merged.Some? {
      var records := merged.value;
      forall i | 0 <= i < |working| ensures records[i].ip == working[i] {
        assert geos[i] == QueryGeo(working[i], geoOf(working[i]));
      }
    }
  }

  /** Reordering records reorders their ips the same way. */
  lemma PermutedIps(a: seq<CombinedRecord>, b: seq<CombinedRecord>)
    requires multiset(a) == multiset(b)
    ensures multiset(IpsOf(a)) == multiset(IpsOf(b))
  {
    MapPermutation(IpOf, a, b);
    assert IpsOf(a) == MapSeq(IpOf, a);
    assert IpsOf(b) == MapSeq(IpOf, b);
  }

  function IpOf(r: CombinedRecord): string {
    r.ip
  }
}

=== FILE: proxy.dfy ===
/** The proxy-capability lookup of isdnsok.py (`check_proxy`): the body is
    treated as JSON when the declared type says so or when it sniffs as a
    JSON object, and every failure yields one and the same record. */
module Proxy {
  import opened Wrappers
  import opened Text
  import opened JsonData
  import Ping

  /** The service's answer: an exception (network error, timeout, anything
      else), or the `Content-Type` header (empty when absent) and the body. */
  datatype ProxyResponse = ProxyRaised | ProxyReplied(contentType: string, body: string)

  datatype ProxyResult = ProxyResult(ip: string, available: Json, port: Json, colo: Json, responseTime: Json)

  /** The record of every failure path. */
  function Unavailable(ip: string): ProxyResult {
    ProxyResult(ip, JBool(false), JNum(-1.0), JStr("N/A"), JNum(-1.0))
  }

  /** The record read from a decoded body, each missing field defaulted. */
  function FromData(ip: string, data: JsonObject): ProxyResult {
    ProxyResult(ip, Get(data, "success", JBool(false)), Get(data, "portRemote", JNum(-1.0)),
                Get(data, "colo", JStr("N/A")), Get(data, "responseTime", JNum(-1.0)))
  }

  /** `formatted_ip`: IPv6 literals are bracketed for use in a URL. */
  function QueryTarget(ip: string): (t: string)
    ensures ':' in ip ==> t == ['['] + ip + [']']
    ensures ':' !in ip ==> t == ip
  {
    if ':' in ip then "[" + ip + "]" else ip
  }

  /** The latency probe's `ip.strip("[]")` undoes the bracketing, so both
      probes address the same host. */
  lemma QueryTargetUnbracketed(ip: string)
    requires |ip| > 0 ==> ip[0] !in "[]" && ip[|ip| - 1] !in "[]"
    ensures Ping.PingTarget(QueryTarget(ip)) == ip
  {
    if ':' in ip {
      StripWrapped(ip, '[', ']', {'[', ']'});
      assert ':' in QueryTarget(ip);
    }
  }

  /** The declared type names JSON (`'application/json' in ct.lower()`). */
  predicate DeclaredJson(contentType: string) {
    Contains(Lower(contentType), "application/json")
  }

  /** The record `check_proxy` returns. The two decoders are the two
      parsers the function calls: `readJson(contentType, body)` is the HTTP
      library's `response.json()`, which sees the declared type as well as
      the body, and `loads(body)` is `json.loads(text)`; each gives `None`
      where the call raises. */
  function CheckProxy(ip: string, response: ProxyResponse, readJson: (string, string) -> Option<JsonObject>,
                      loads: string -> Option<JsonObject>): (r: ProxyResult)
    ensures r.ip == ip
    // declared JSON is read by `response.json()`
    ensures response.ProxyReplied? && DeclaredJson(response.contentType)
            && readJson(response.contentType, response.body).Some? ==>
              r == FromData(ip, readJson(response.contentType, response.body).value)
    // any other body is sniffed, and read by `json.loads` when it starts with `{`
    ensures response.ProxyReplied? && !DeclaredJson(response.contentType) && FirstNonBlankIs(response.body, '{')
            && loads(response.body).Some? ==>
              r == FromData(ip, loads(response.body).value)
    // an exception, a parser that raises, or a body that does not sniff as JSON fails
    ensures (|| response.ProxyRaised?
             || (DeclaredJson(response.contentType) && readJson(response.contentType, response.body).None?)
             || (!DeclaredJson(response.contentType) &&
                 (!FirstNonBlankIs(response.body, '{') || loads(response.body).None?))) ==> r == Unavailable(ip)
  {
    match response
    case ProxyRaised => Unavailable(ip)
    case ProxyReplied(contentType, body) =>
      StripStartsWith(body, '{');
      if DeclaredJson(contentType) then
        match readJson(contentType, body)
        case Some(data) => FromData(ip, data)
        case None => Unavailable(ip)
      else if StartsWith(Strip(body), "{") then
        match loads(body)
        case Some(data) => FromData(ip, data)
        case None => Unavailable(ip)
      else
        Unavailable(ip)
  }

  /** A body whose first non-blank character is `{` is read the same way
      whatever its declared type, provided `response.json()` agrees with
      `json.loads` on it under every declared type involved. */
  lemma ContentTypeIrrelevantForObjects(ip: string, ct1: string, ct2: string, body: string,
                                        readJson: (string, string) -> Option<JsonObject>, loads: string -> Option<JsonObject>)
    requires FirstNonBlankIs(body, '{')
    requires DeclaredJson(ct1) ==> readJson(ct1, body) == loads(body)
    requires DeclaredJson(ct2) ==> readJson(ct2, body) == loads(body)
    ensures CheckProxy(ip, ProxyReplied(ct1, body), readJson, loads) == CheckProxy(ip, ProxyReplied(ct2, body), readJson, loads)
  {
  }

  /** When the two parsers disagree, the declared type decides: a body that
      `response.json()` accepts and `json.loads` rejects (one led by a form
      feed, say) gives its fields as `application/json` and the failure
      record as `text/plain`. */
  lemma DeclaredTypeSelectsParser(ip: string, body: string,
                                  readJson: (string, string) -> Option<JsonObject>, loads: string -> Option<JsonObject>)
    requires readJson("application/json", body).Some? && loads(body).None?
    ensures CheckProxy(ip, ProxyReplied("application/json", body), readJson, loads)
              == FromData(ip, readJson("application/json", body).value)
    ensures CheckProxy(ip, ProxyReplied("text/plain", body), readJson, loads) == Unavailable(ip)
  {
    DeclaredJsonApplication();
    DeclaredJsonPlain();
  }

  /** `application/json` names JSON. */
  lemma DeclaredJsonApplication()
    ensures DeclaredJson("application/json")
  {
    var ct := "application/json";
    assert forall i :: 0 <= i < |ct| ==> Lower(ct)[i] == ct[i];
    assert Lower(ct) == ct;
    assert ct <= Lower(ct)[0..];
  }

  /** `text/plain` does not name JSON. */
  lemma DeclaredJsonPlain()
    ensures !DeclaredJson("text/plain")
  {
  }

  /** A plain-text answer carrying a JSON object with leading blanks is
      read as JSON: an available proxy on the reported port. */
  lemma PlainTextObjectIsParsed(ip: string, readJson: (string, string) -> Option<JsonObject>, loads: string -> Option<JsonObject>)
    requires loads("  {\"success\":true,\"portRemote\":443}") ==
             Some(map["success" := JBool(true), "portRemote" := JNum(443.0)])
    ensures CheckProxy(ip, ProxyReplied("text/plain", "  {\"success\":true,\"portRemote\":443}"), readJson, loads).available == JBool(true)
    ensures CheckProxy(ip, ProxyReplied("text/plain", "  {\"success\":true,\"portRemote\":443}"), readJson, loads).port == JNum(443.0)
  {
    var body := "  {\"success\":true,\"portRemote\":443}";
    var data := map["success" := JBool(true), "portRemote" := JNum(443.0)];
    assert body[0] == ' ' && body[1] == ' ' && body[2] == '{';
    assert FirstNonBlankIs(body, '{');
    DeclaredJsonPlain();
    assert CheckProxy(ip, ProxyReplied("text/plain", body), readJson, loads) == FromData(ip, data);
    assert "success" in data && "portRemote" in data;
  }
}

=== FILE: ranking.dfy ===
/** The final ranking of both scripts: Python's `sorted` with a latency
    key, ascending, infinity last, and stable (records with equal keys keep
    their order). Modelled as insertion sort over a sequence. */
module Ranking {
  import opened Ping
  import opened Text

  /** The key order: finite latencies by value, then every unmeasured one. */
  predicate Le(a: Latency, b: Latency) {
    b.Unmeasured? || (a.Finite? && a.ms <= b.ms)
  }

  /** `a < b` for keys, the only comparison `sorted` makes. */
  predicate Lt(a: Latency, b: Latency) {
    !Le(b, a)
  }

  /** Ascending by key. */
  ghost predicate Sorted<T>(s: seq<T>, key: T -> Latency) {
    forall i, j :: 0 <= i < j < |s| ==> Le(key(s[i]), key(s[j]))
  }

  /** The elements of `s` whose key is `k`, in order. */
  function WithKey<T>(s: seq<T>, key: T -> Latency, k: Latency): seq<T> {
    if |s| == 0 then []
    else (if key(s[0]) == k then [s[0]] else []) + WithKey(s[1..], key, k)
  }

  /** Places `x` before the first element whose key is not smaller. */
  function Insert<T>(x: T, s: seq<T>, key: T -> Latency): (r: seq<T>)
    ensures |r| == |s| + 1
    ensures multiset(r) == multiset(s) + multiset{x}
  {
    if |s| == 0 then [x]
    else if Lt(key(s[0]), key(x)) then
      assert s == [s[0]] + s[1..];
      [s[0]] + Insert(x, s[1..], key)
    else
      [x] + s
  }

  /** Inserting into an ascending sequence keeps it ascending. */
  lemma {:induction false} InsertKeepsSorted<T>(x: T, s: seq<T>, key: T -> Latency)
    requires Sorted(s, key)
    ensures Sorted(Insert(x, s, key), key)
    decreases |s|
  {
    if |s| > 0 {
      var r := Insert(x, s, key);
      if Lt(key(s[0]), key(x)) {
        var tail := Insert(x, s[1..], key);
        InsertKeepsSorted(x, s[1..], key);
        forall j | 0 <= j < |tail| ensures Le(key(s[0]), key(tail[j])) {
          assert tail[j] in multiset(tail);
          if tail[j] != x {
            assert tail[j] in multiset(s[1..]);
            var m :| 0 <= m < |s[1..]| && s[1..][m] == tail[j];
            assert s[m + 1] == tail[j];
          }
        }
        assert r == [s[0]] + tail;
      } else {
        assert r == [x] + s;
      }
    }
  }

  /** `sorted(s, key=key)`. */
  function SortByLatency<T>(s: seq<T>, key: T -> Latency): (r: seq<T>)
    ensures |r| == |s|
    ensures multiset(r) == multiset(s)
    ensures Sorted(r, key)
  {
    if |s| == 0 then []
    else
      assert s == [s[0]] + s[1..];
      var rest := SortByLatency(s[1..], key);
      InsertKeepsSorted(s[0], rest, key);
      Insert(s[0], rest, key)
  }

  lemma {:induction false} InsertWithKey<T>(x: T, s: seq<T>, key: T -> Latency, k: Latency)
    ensures WithKey(Insert(x, s, key), key, k) == (if key(x) == k then [x] else []) + WithKey(s, key, k)
    decreases |s|
  {
    var r := Insert(x, s, key);
    var hx := if key(x) == k then [x] else [];
    if |s| == 0 {
      assert r[1..] == [];
    } else if Lt(key(s[0]), key(x)) {
      var hs := if key(s[0]) == k then [s[0]] else [];
      InsertWithKey(x, s[1..], key, k);
      assert r[0] == s[0] && r[1..] == Insert(x, s[1..], key);
      assert WithKey(r, key, k) == hs + (hx + WithKey(s[1..], key, k));
      assert WithKey(s, key, k) == hs + WithKey(s[1..], key, k);
      assert hs == [] || hx == [];
      AppendAssoc(hs, hx, WithKey(s[1..], key, k));
      AppendAssoc(hx, hs, WithKey(s[1..], key, k));
    } else {
      assert r[0] == x && r[1..] == s;
    }
  }

  /** Stability: for every key, the records with that key appear in the
      ranking in the order they had before. */
  lemma {:induction false} SortIsStable<T>(s: seq<T>, key: T -> Latency, k: Latency)
    ensures WithKey(SortByLatency(s, key), key, k) == WithKey(s, key, k)
    decreases |s|
  {
    if |s| > 0 {
      SortIsStable(s[1..], key, k);
      InsertWithKey(s[0], SortByLatency(s[1..], key), key, k);
    }
  }

  /** Unmeasured records come after every measured one. */
  lemma UnmeasuredLast<T>(s: seq<T>, key: T -> Latency, i: int, j: int)
    requires 0 <= i < j < |SortByLatency(s, key)|
    requires key(SortByLatency(s, key)[i]).Unmeasured?
    ensures key(SortByLatency(s, key)[j]).Unmeasured?
  {
  }

  lemma {:induction false} WithKeyHead<T>(s: seq<T>, key: T -> Latency)
    requires |s| > 0
    ensures WithKey(s, key, key(s[0])) == [s[0]] + WithKey(s[1..], key, key(s[0]))
  {
  }

  lemma {:induction false} WithKeyMember<T>(s: seq<T>, key: T -> Latency, k: Latency, y: T)
    requires y in WithKey(s, key, k)
    ensures exists i :: 0 <= i < |s| && s[i] == y && key(y) == k
    decreases |s|
  {
    if key(s[0]) == k && y == s[0] {
      assert s[0] == y;
    } else {
      assert y in WithKey(s[1..], key, k);
      WithKeyMember(s[1..], key, k, y);
      var i :| 0 <= i < |s[1..]| && s[1..][i] == y && key(y) == k;
      assert s[i + 1] == y;
    }
  }

  /** Sorted and stable determine the result: any arrangement of the same
      records that is ascending and keeps the order within every key is
      the ranking `sorted` produces. */
  lemma {:induction false} StableSortUnique<T>(r1: seq<T>, r2: seq<T>, key: T -> Latency)
    requires Sorted(r1, key) && Sorted(r2, key)
    requires forall k :: WithKey(r1, key, k) == WithKey(r2, key, k)
    ensures r1 == r2
    decreases |r1|
  {
    if |r1| == 0 {
      if |r2| > 0 {
        WithKeyHead(r2, key);
        assert false;
      }
    } else if |r2| == 0 {
      WithKeyHead(r1, key);
      assert false;
    } else {
      var k1, k2 := key(r1[0]), key(r2[0]);
      WithKeyHead(r1, key);
      WithKeyHead(r2, key);
      assert r1[0] in WithKey(r2, key, k1);
      WithKeyMember(r2, key, k1, r1[0]);
      assert Le(k2, k1);
      assert r2[0] in WithKey(r1, key, k2);
      WithKeyMember(r1, key, k2, r2[0]);
      assert Le(k1, k2);
      assert k1 == k2;
      assert r1[0] == WithKey(r1, key, k1)[0] == WithKey(r2, key, k1)[0] == r2[0];
      forall k ensures WithKey(r1[1..], key, k) == WithKey(r2[1..], key, k) {
        assert WithKey(r1, key, k) == WithKey(r2, key, k);
        if k != k1 {
          assert WithKey(r1, key, k) == WithKey(r1[1..], key, k);
          assert WithKey(r2, key, k) == WithKey(r2[1..], key, k);
        } else {
          assert WithKey(r1[1..], key, k) == WithKey(r1, key, k)[1..];
          assert WithKey(r2[1..], key, k) == WithKey(r2, key, k)[1..];
        }
      }
      StableSortUnique(r1[1..], r2[1..], key);
      assert r1 == [r1[0]] + r1[1..];
      assert r2 == [r2[0]] + r2[1..];
    }
  }

  /** `SortByLatency` is Python's stable sort: any ascending arrangement
      that keeps the order within every key equals it. */
  lemma SortIsTheStableSort<T>(s: seq<T>, r: seq<T>, key: T -> Latency)
    requires Sorted(r, key)
    requires forall k :: WithKey(r, key, k) == WithKey(s, key, k)
    ensures r == SortByLatency(s, key)
  {
    forall k ensures WithKey(r, key, k) == WithKey(SortByLatency(s, key), key, k) {
      SortIsStable(s, key, k);
    }
    StableSortUnique(r, SortByLatency(s, key), key);
  }
}

=== FILE: resolver.dfy ===
/** The per-connection address override of isdnsok.py. Each connectivity
    probe builds its own resolver holding the candidate address; the
    resolver answers for the fixed domain with that address and hands
    every other host to the platform resolver unchanged. */
module Resolver {
  import opened Sockets

  /** The domain whose answers are overridden. */
  const Domain: string := "hello.domain.xyz"

  /** One answer record in aiohttp's resolver format. */
  datatype HostEntry = HostEntry(hostname: string, host: string, port: int, family: Family, proto: int, flags: int)

  /** The platform resolvers a resolver may delegate to: aiohttp's
      `DefaultResolver` (used on macOS) and `AsyncResolver` (elsewhere). */
  datatype SystemResolvers = SystemResolvers(
    defaultResolver: (string, int, Family) -> seq<HostEntry>,
    asyncResolver: (string, int, Family) -> seq<HostEntry>)

  /** `SimpleResolver(ip)` on macOS, `CustomResolver(ip)` elsewhere. */
  datatype AddressResolver = SimpleResolver(ip: string) | CustomResolver(ip: string)

  /** The fallback a resolver uses for hosts other than the domain. */
  function Fallback(r: AddressResolver, sys: SystemResolvers): (string, int, Family) -> seq<HostEntry> {
    match r
    case SimpleResolver(_) => sys.defaultResolver
    case CustomResolver(_) => sys.asyncResolver
  }

  /** `resolve(host, port, family)` of either resolver class. */
  function Resolve(r: AddressResolver, host: string, port: int, family: Family, sys: SystemResolvers): (answer: seq<HostEntry>)
    ensures host == Domain ==>
      && |answer| == 1
      && answer[0].hostname == host
      && answer[0].host == r.ip
      && answer[0].port == port
      && (answer[0].family == Inet6 <==> ':' in r.ip)
      && answer[0].proto == 0 && answer[0].flags == 0
    ensures host != Domain ==> answer == Fallback(r, sys)(host, port, family)
  {
    if host == Domain then
      [HostEntry(host, r.ip, port, FamilyOf(r.ip), 0, 0)]
    else
      Fallback(r, sys)(host, port, family)
  }

  /** The override ignores the family the caller asked for: two lookups of
      the domain that differ only in the requested family agree. */
  lemma OverrideIgnoresRequestedFamily(r: AddressResolver, port: int, f1: Family, f2: Family, sys: SystemResolvers)
    ensures Resolve(r, Domain, port, f1, sys) == Resolve(r, Domain, port, f2, sys)
  {
  }

  /** Two resolvers built for different candidates send the domain to
      different addresses whatever the platform resolver does: no binding
      is shared between probes. */
  lemma OverridesAreIsolated(r1: AddressResolver, r2: AddressResolver, port: int, family: Family, sys: SystemResolvers)
    requires r1.ip != r2.ip
    ensures Resolve(r1, Domain, port, family, sys)[0].host != Resolve(r2, Domain, port, family, sys)[0].host
  {
  }
}

=== FILE: sockets.dfy ===
/** The socket constants that appear in resolver answers. */
module Sockets {

  /** `socket.AF_INET` and `socket.AF_INET6`. */
  datatype Family = Inet | Inet6

  /** `socket.SOCK_STREAM`, the only socket type the probes ask for. */
  datatype SockType = Stream

  /** The address family an address literal needs: IPv6 exactly when it
      holds a colon. */
  function FamilyOf(ip: string): (f: Family)
    ensures f == Inet6 <==> ':' in ip
  {
    if ':' in ip then Inet6 else Inet
  }
}

=== FILE: tester_run.dfy ===
/** The run of tester.py (`main` and `save_to_csv`): test the candidates
    in slices of ten, keep the records of the ones that passed, rank them
    by latency with failed measurements last, and merge them into the
    saved records, replacing the re-tested ips. */
module TesterRun {
  import opened Wrappers
  import opened Ping
  import opened Ranking
  import opened Batching
  import opened Text

  /** Candidates per slice. */
  const BatchSize: nat := 10

  /** The `延迟(ms)` cell of a record: a measured mean, or `测试失败`. */
  datatype LatencyCell = Measured(ms: real) | TestFailed

  /** The cell `test_ip` writes for what `test_latency` returned. */
  function CellOf(latency: Option<real>): LatencyCell {
    match latency
    case None => TestFailed
    case Some(ms) => Measured(ms)
  }

  /** The ranking key: the cell's number, infinity for `测试失败`. */
  function SortKey(c: LatencyCell): Latency {
    match c
    case Measured(ms) => Finite(ms)
    case TestFailed => Unmeasured
  }

  /** The ranking key of a record whose cell `cellOf` reads. */
  function KeyOf<R>(cellOf: R -> LatencyCell): R -> Latency {
    r => SortKey(cellOf(r))
  }

  /** Both scripts rank two hosts alike from the same echo readings:
      tester.py's key over its cells orders them as isdnsok.py's
      `ping_delay` does. */
  lemma KeysRankAlike(e1: seq<Echo>, e2: seq<Echo>)
    requires Raised !in e1 && Raised !in e2
    ensures SortKey(CellOf(TestLatency(e1))).Unmeasured? <==> PingIp(e1).Unmeasured?
    ensures Le(SortKey(CellOf(TestLatency(e1))), SortKey(CellOf(TestLatency(e2)))) <==> Le(PingIp(e1), PingIp(e2))
  {
    LatencyVariantsAgree(e1);
    LatencyVariantsAgree(e2);
    if PingIp(e1).Finite? && PingIp(e2).Finite? {
      var a, b := PingIp(e1).ms, PingIp(e2).ms;
      assert 1000.0 * a <= 1000.0 * b <==> a <= b;
    }
  }

  /** The records of the candidates that passed, in test order: `test`
      gives a record (`isinstance(result, dict)`) or nothing. */
  function Passed<T, R>(ips: seq<T>, test: T -> Option<R>): (good: seq<R>)
    ensures |good| <= |ips|
  {
    if |ips| == 0 then []
    else (if test(ips[0]).Some? then [test(ips[0]).value] else []) + Passed(ips[1..], test)
  }

  /** A record is kept exactly when some candidate produced it. */
  lemma {:induction false} PassedMembers<T, R>(ips: seq<T>, test: T -> Option<R>, x: R)
    ensures x in Passed(ips, test) <==> exists i :: 0 <= i < |ips| && test(ips[i]) == Some(x)
    decreases |ips|
  {
    if |ips| > 0 {
      PassedMembers(ips[1..], test, x);
      if exists i :: 0 <= i < |ips| && test(ips[i]) == Some(x) {
        var i :| 0 <= i < |ips| && test(ips[i]) == Some(x);
        if i > 0 {
          assert test(ips[1..][i - 1]) == Some(x);
        }
      }
      if exists i :: 0 <= i < |ips[1..]| && test(ips[1..][i]) == Some(x) {
        var i :| 0 <= i < |ips[1..]| && test(ips[1..][i]) == Some(x);
        assert test(ips[i + 1]) == Some(x);
      }
    }
  }

  lemma {:induction false} PassedAppend<T, R>(a: seq<T>, b: seq<T>, test: T -> Option<R>)
    ensures Passed(a + b, test) == Passed(a, test) + Passed(b, test)
    decreases |a|
  {
    if |a| == 0 {
      assert a + b == b;
    } else {
      var head := if test(a[0]).Some? then [test(a[0]).value] else [];
      assert (a + b)[0] == a[0];
      assert (a + b)[1..] == a[1..] + b;
      assert Passed(a + b, test) == head + Passed(a[1..] + b, test);
      assert Passed(a, test) == head + Passed(a[1..], test);
      PassedAppend(a[1..], b, test);
    }
  }

  /** Nothing is kept exactly when every candidate failed. */
  lemma NonePassed<T, R>(ips: seq<T>, test: T -> Option<R>)
    ensures Passed(ips, test) == [] <==> forall i :: 0 <= i < |ips| ==> test(ips[i]).None?
  {
    var good := Passed(ips, test);
    if good != [] {
      PassedMembers(ips, test, good[0]);
    }
    forall i | 0 <= i < |ips| && test(ips[i]).Some? ensures good != [] {
      PassedMembers(ips, test, test(ips[i]).value);
    }
  }

  /** tester.py waits after the slice starting at `k * size` when
      `i + batch_size < len(ips)`; that is exactly when another batch
      follows, the rule isdnsok.py states as `batch_num < total_batches`. */
  lemma SleepRulesAgree<T>(xs: seq<T>, size: nat, k: nat)
    requires size > 0 && k < |Batches(xs, size)|
    ensures k * size + size < |xs| <==> k + 1 < |Batches(xs, size)|
  {
    var n := |Batches(xs, size)|;
    BatchCount(xs, 0, size);
    var last, all := (n - 1) * size, n * size;
    assert last < |xs| <= all;
    assert all == last + size;
    if k + 1 < n {
      MulMonotone(k + 1, n - 1, size);
    } else {
      assert k == n - 1;
    }
  }

  /** `a * c <= b * c` for `a <= b` and `c >= 0`. */
  lemma MulMonotone(a: int, b: int, c: nat)
    requires a <= b
    ensures a * c <= b * c
  {
    assert b * c == a * c + (b - a) * c;
  }

  /** The slice starting at `i` and the schedule from there: the slice is
      dispatched, then a wait follows exactly when `i + size < len(ips)`. */
  lemma SliceStep<T>(ips: seq<T>, i: nat, size: nat)
    requires size > 0 && i < |ips|
    ensures BatchesFrom(ips, i, size) == [ips[i..Min(i + size, |ips|)]] + BatchesFrom(ips, i + size, size)
    ensures Schedule(BatchesFrom(ips, i, size)) ==
              [Dispatch(ips[i..Min(i + size, |ips|)])] + (if i + size < |ips| then [Pause] else [])
              + Schedule(BatchesFrom(ips, i + size, size))
  {
    var bs := BatchesFrom(ips, i, size);
    ScheduleStep(bs, 0);
    assert bs[0..] == bs;
    assert bs[1..] == BatchesFrom(ips, i + size, size);
  }

  /** One pass of `main`'s loop keeps the steps taken so far a prefix of
      the plan. */
  lemma SliceStepPlan<T>(ips: seq<T>, i: nat, size: nat, before: seq<Step<T>>, after: seq<Step<T>>, plan: seq<Step<T>>)
    requires size > 0 && i < |ips|
    requires before + Schedule(BatchesFrom(ips, i, size)) == plan
    requires after == before + [Dispatch(ips[i..Min(i + size, |ips|)])] + (if i + size < |ips| then [Pause] else [])
    ensures after + Schedule(BatchesFrom(ips, i + size, size)) == plan
  {
    SliceStep(ips, i, size);
    var p := if i + size < |ips| then [Pause] else [];
    var d := [Dispatch(ips[i..Min(i + size, |ips|)])];
    var next := Schedule(BatchesFrom(ips, i + size, size));
    AppendAssoc(before + d, p, next);
    AppendAssoc(before, d, p + next);
    AppendAssoc(d, p, next);
  }

  /** Testing a longer prefix keeps what the shorter one kept. */
  lemma PassedPrefix<T, R>(ips: seq<T>, test: T -> Option<R>, i: nat, hi: nat)
    requires i <= hi <= |ips|
    ensures Passed(ips[..hi], test) == Passed(ips[..i], test) + Passed(ips[i..hi], test)
  {
    assert ips[..hi] == ips[..i] + ips[i..hi];
    PassedAppend(ips[..i], ips[i..hi], test);
  }

  /** `main`'s loop: `for i in range(0, len(ips), batch_size)`, test the
      slice, keep the passed records, and wait when
      `i + batch_size < len(ips)`. */
  method RunBatches<T, R>(ips: seq<T>, test: T -> Option<R>) returns (good: seq<R>, steps: seq<Step<T>>)
    ensures good == Passed(ips, test)
    ensures steps == Schedule(Batches(ips, BatchSize))
  {
    var n := |ips|;
    good, steps := [], [];
    ghost var plan := Schedule(Batches(ips, BatchSize));
    var i: nat := 0;
    while i < n
      invariant good == Passed(ips[..Min(i, n)], test)
      invariant steps + Schedule(BatchesFrom(ips, i, BatchSize)) == plan
      decreases n - i
    {
      var batch := ips[i..Min(i + BatchSize, n)];
      PassedPrefix(ips, test, i, Min(i + BatchSize, n));
      good := good + Passed(batch, test);
      ghost var before := steps;
      steps := steps + [Dispatch(batch)];
      if i + BatchSize < n {
        steps := steps + [Pause];
      }
      SliceStepPlan(ips, i, BatchSize, before, steps, plan);
      i := i + BatchSize;
    }
    assert ips[..Min(i, n)] == ips;
  }

  /** The ips of a list of records. */
  function IpSet<R(==,!new)>(rs: seq<R>, ipOf: R -> string): set<string> {
    set r | r in rs :: ipOf(r)
  }

  /** No two records share an ip. */
  ghost predicate UniqueIps<R>(rs: seq<R>, ipOf: R -> string) {
    forall i, j :: 0 <= i < j < |rs| ==> ipOf(rs[i]) != ipOf(rs[j])
  }

  /** The existing records whose ip is not in `ips`, in their order. */
  function Retained<R(==,!new)>(existing: seq<R>, ips: set<string>, ipOf: R -> string): (kept: seq<R>)
    ensures |kept| <= |existing|
    ensures forall r :: r in kept <==> r in existing && ipOf(r) !in ips
  {
    if |existing| == 0 then []
    else
      assert forall r :: r in existing <==> r == existing[0] || r in existing[1..];
      (if ipOf(existing[0]) in ips then [] else [existing[0]]) + Retained(existing[1..], ips, ipOf)
  }

  /** `save_to_csv`: the existing records not re-tested, then every new
      record, in order. */
  function MergeCsv<R(==,!new)>(existing: seq<R>, added: seq<R>, ipOf: R -> string): (all: seq<R>)
    ensures |all| >= |added| && all[|all| - |added|..] == added
    ensures forall r :: r in all[..|all| - |added|] <==> r in existing && ipOf(r) !in IpSet(added, ipOf)
  {
    var survivors := Retained(existing, IpSet(added, ipOf), ipOf);
    assert (survivors + added)[..|survivors|] == survivors;
    survivors + added
  }

  /** No retained record shares an ip with a new one. */
  lemma NoSharedIp<R(!new)>(existing: seq<R>, added: seq<R>, ipOf: R -> string, i: int, j: int)
    requires 0 <= i < |MergeCsv(existing, added, ipOf)| - |added| && 0 <= j < |added|
    ensures ipOf(MergeCsv(existing, added, ipOf)[i]) != ipOf(added[j])
  {
    var all := MergeCsv(existing, added, ipOf);
    var k := |all| - |added|;
    assert all[i] == all[..k][i];
    assert all[..k][i] in all[..k];
    assert added[j] in added;
  }

  /** The saved ips are the survivors ones and the new ones together. */
  lemma MergeIps<R(!new)>(existing: seq<R>, added: seq<R>, ipOf: R -> string)
    ensures IpSet(MergeCsv(existing, added, ipOf), ipOf) == IpSet(existing, ipOf) + IpSet(added, ipOf)
  {
    var all := MergeCsv(existing, added, ipOf);
    var k := |all| - |added|;
    assert all == all[..k] + added;
    forall ip | ip in IpSet(existing, ipOf) + IpSet(added, ipOf) ensures ip in IpSet(all, ipOf) {
      if ip !in IpSet(added, ipOf) {
        var r :| r in existing && ipOf(r) == ip;
        assert r in all[..k];
      } else {
        var r :| r in added && ipOf(r) == ip;
        assert r in all;
      }
    }
  }

  /** Filtering keeps ips unique. */
  lemma {:induction false} RetainedUnique<R(!new)>(existing: seq<R>, ips: set<string>, ipOf: R -> string)
    requires UniqueIps(existing, ipOf)
    ensures UniqueIps(Retained(existing, ips, ipOf), ipOf)
    decreases |existing|
  {
    if |existing| > 0 {
      var tail := existing[1..];
      assert UniqueIps(tail, ipOf) by {
        forall i, j | 0 <= i < j < |tail| ensures ipOf(tail[i]) != ipOf(tail[j]) {
          assert tail[i] == existing[i + 1] && tail[j] == existing[j + 1];
        }
      }
      RetainedUnique(tail, ips, ipOf);
      var rest := Retained(tail, ips, ipOf);
      if ipOf(existing[0]) !in ips {
        assert Retained(existing, ips, ipOf) == [existing[0]] + rest;
        var head := [existing[0]];
        forall i, j | 0 <= i < |head| && 0 <= j < |rest| ensures ipOf(head[i]) != ipOf(rest[j]) {
          assert rest[j] in rest;
          var m :| 0 <= m < |tail| && tail[m] == rest[j];
          assert existing[m + 1] == rest[j];
        }
        UniqueConcat(head, rest, ipOf);
      }
    }
  }

  /** A file with unique ips stays so when new records with unique ips
      are merged in. */
  lemma MergeKeepsUnique<R(!new)>(existing: seq<R>, added: seq<R>, ipOf: R -> string)
    requires UniqueIps(existing, ipOf) && UniqueIps(added, ipOf)
    ensures UniqueIps(MergeCsv(existing, added, ipOf), ipOf)
  {
    var ips := IpSet(added, ipOf);
    var survivors := Retained(existing, ips, ipOf);
    RetainedUnique(existing, ips, ipOf);
    forall i, j | 0 <= i < |survivors| && 0 <= j < |added|
      ensures ipOf(survivors[i]) != ipOf(added[j])
    {
      assert survivors[i] in survivors;
      assert added[j] in added;
    }
    UniqueConcat(survivors, added, ipOf);
  }

  /** Two lists with unique ips and no ip in common concatenate to a list
      with unique ips. */
  lemma UniqueConcat<R>(a: seq<R>, b: seq<R>, ipOf: R -> string)
    requires UniqueIps(a, ipOf) && UniqueIps(b, ipOf)
    requires forall i, j :: 0 <= i < |a| && 0 <= j < |b| ==> ipOf(a[i]) != ipOf(b[j])
    ensures UniqueIps(a + b, ipOf)
  {
    var ab := a + b;
    forall i, j | 0 <= i < j < |ab| ensures ipOf(ab[i]) != ipOf(ab[j]) {
      if j < |a| {
        assert ab[i] == a[i] && ab[j] == a[j];
      } else if i < |a| {
        assert ab[i] == a[i] && ab[j] == b[j - |a|];
      } else {
        assert ab[i] == b[i - |a|] && ab[j] == b[j - |a|];
      }
    }
  }

  /** Records whose ip is not in `ips` are all kept, in order. */
  lemma {:induction false} RetainedUntouched<R(!new)>(existing: seq<R>, ips: set<string>, ipOf: R -> string)
    requires forall r :: r in existing ==> ipOf(r) !in ips
    ensures Retained(existing, ips, ipOf) == existing
    decreases |existing|
  {
    if |existing| > 0 {
      var tail := existing[1..];
      assert existing[0] in existing;
      assert Retained(existing, ips, ipOf) == [existing[0]] + Retained(tail, ips, ipOf);
      forall r | r in tail ensures ipOf(r) !in ips {
        var k :| 0 <= k < |tail| && tail[k] == r;
        assert existing[k + 1] == r;
      }
      RetainedUntouched(tail, ips, ipOf);
      assert existing == [existing[0]] + tail;
    }
  }

  /** When every record's ip is in `ips`, none is retained. */
  lemma {:induction false} RetainedNone<R(!new)>(existing: seq<R>, ips: set<string>, ipOf: R -> string)
    requires forall r :: r in existing ==> ipOf(r) in ips
    ensures Retained(existing, ips, ipOf) == []
    decreases |existing|
  {
    if |existing| > 0 {
      assert existing[0] in existing;
      assert forall r :: r in existing[1..] ==> r in existing;
      RetainedNone(existing[1..], ips, ipOf);
    }
  }

  lemma {:induction false} RetainedAppend<R(!new)>(a: seq<R>, b: seq<R>, ips: set<string>, ipOf: R -> string)
    ensures Retained(a + b, ips, ipOf) == Retained(a, ips, ipOf) + Retained(b, ips, ipOf)
    decreases |a|
  {
    if |a| == 0 {
      assert a + b == b;
    } else {
      var h := if ipOf(a[0]) in ips then [] else [a[0]];
      assert (a + b)[0] == a[0];
      assert (a + b)[1..] == a[1..] + b;
      assert Retained(a + b, ips, ipOf) == h + Retained(a[1..] + b, ips, ipOf);
      assert Retained(a, ips, ipOf) == h + Retained(a[1..], ips, ipOf);
      RetainedAppend(a[1..], b, ips, ipOf);
      AppendAssoc(h, Retained(a[1..], ips, ipOf), Retained(b, ips, ipOf));
    }
  }

  /** Saving the same new records twice leaves the file as saving them
      once. */
  lemma MergeIdempotent<R(!new)>(existing: seq<R>, added: seq<R>, ipOf: R -> string)
    ensures MergeCsv(MergeCsv(existing, added, ipOf), added, ipOf) == MergeCsv(existing, added, ipOf)
  {
    var ips := IpSet(added, ipOf);
    var survivors := Retained(existing, ips, ipOf);
    RetainedAppend(survivors, added, ips, ipOf);
    RetainedUntouched(survivors, ips, ipOf);
    RetainedNone(added, ips, ipOf);
    assert survivors + [] == survivors;
  }

  /** `main`: test in slices, rank the passed records by their latency
      cell (`测试失败` last, ties in test order), and, when any passed,
      merge them into the `existing` records. */
  method RunTester<T, R(==,!new)>(ips: seq<T>, test: T -> Option<R>, cellOf: R -> LatencyCell, ipOf: R -> string,
                         existing: seq<R>)
    returns (ranked: seq<R>, saved: Option<seq<R>>, steps: seq<Step<T>>)
    ensures multiset(ranked) == multiset(Passed(ips, test))
    ensures Sorted(ranked, KeyOf(cellOf))
    ensures ranked == SortByLatency(Passed(ips, test), KeyOf(cellOf))
    ensures saved.None? <==> forall i :: 0 <= i < |ips| ==> test(ips[i]).None?
    ensures saved.Some? ==> saved.value == MergeCsv(existing, ranked, ipOf)
    ensures steps == Schedule(Batches(ips, BatchSize))
  {
    var good;
    good, steps := RunBatches(ips, test);
    NonePassed(ips, test);
    ranked := SortByLatency(good, KeyOf(cellOf));
    if good == [] {
      saved := None;
    } else {
      saved := Some(MergeCsv(existing, ranked, ipOf));
    }
  }
}

=== FILE: text.dfy ===
/** The Python string operations the probes rely on, restated over
    `string` (a `seq<char>`): slicing, `in`, `startswith`, `split` on one
    character, `strip()` and `lower()`. */
module Text {

  /** `s[:n]`: the first `n` characters, or all of `s` when it is shorter. */
  function Take(s: string, n: nat): (r: string)
    ensures r <= s
    ensures |r| == if |s| <= n then |s| else n
  {
    if |s| <= n then s else s[..n]
  }

  /** Concatenation is associative; stated once so that proofs can name
      the regrouping step. */
  lemma AppendAssoc<T>(a: seq<T>, b: seq<T>, c: seq<T>)
    ensures (a + b) + c == a + (b + c)
  {
  }

  /** `s.startswith(p)`. */
  predicate StartsWith(s: string, p: string) {
    p <= s
  }

  /** `sub in s` for two strings: `sub` occurs at some offset of `s`. */
  predicate Contains(s: string, sub: string) {
    exists i | 0 <= i <= |s| :: sub <= s[i..]
  }

  /** `s.split(c)[0]`: everything before the first `c`, or all of `s`. */
  function TakeUntil(s: string, c: char): (r: string)
    ensures r <= s
    ensures c !in r
    ensures |r| < |s| ==> s[|r|] == c
  {
    if |s| == 0 || s[0] == c then [] else [s[0]] + TakeUntil(s[1..], c)
  }

  /** `s.split(c)` for a one-character separator: the pieces of `s`
      between occurrences of `c`, empty pieces included, never an empty
      list. */
  function Split(s: string, c: char): (parts: seq<string>)
    ensures |parts| >= 1
    ensures parts[0] == TakeUntil(s, c)
    ensures forall i :: 0 <= i < |parts| ==> c !in parts[i]
    ensures |parts| >= 2 <==> c in s
    decreases |s|
  {
    var head := TakeUntil(s, c);
    if |head| == |s| then
      assert head == s;
      [s]
    else
      [head] + Split(s[|head| + 1..], c)
  }

  /** `c.join(parts)`: the inverse of `Split`. */
  function Join(parts: seq<string>, c: char): string
    requires |parts| >= 1
  {
    if |parts| == 1 then parts[0] else parts[0] + [c] + Join(parts[1..], c)
  }

  /** Joining the pieces of a split gives the string back. */
  lemma {:induction false} JoinSplit(s: string, c: char)
    ensures Join(Split(s, c), c) == s
    decreases |s|
  {
    var head := TakeUntil(s, c);
    if |head| < |s| {
      var rest := s[|head| + 1..];
      var parts := Split(s, c);
      var tail := Split(rest, c);
      assert parts == [head] + tail;
      assert |parts| >= 2 && parts[0] == head && parts[1..] == tail;
      JoinSplit(rest, c);
      assert Join(parts, c) == head + [c] + Join(tail, c);
      CutAt(s, |head|);
    }
  }

  /** A string is its prefix, the character at the cut, and the rest. */
  lemma CutAt(s: string, n: nat)
    requires n < |s|
    ensures s == s[..n] + [s[n]] + s[n + 1..]
  {
    assert s[..n] + [s[n]] == s[..n + 1];
  }

  /** Splitting a join of separator-free pieces gives the pieces back. */
  lemma {:induction false} SplitJoin(parts: seq<string>, c: char)
    requires |parts| >= 1
    requires forall i :: 0 <= i < |parts| ==> c !in parts[i]
    ensures Split(Join(parts, c), c) == parts
    decreases |parts|
  {
    var s := Join(parts, c);
    if |parts| == 1 {
      TakeUntilWhole(s, c);
    } else {
      var rest := Join(parts[1..], c);
      assert s == parts[0] + ([c] + rest);
      TakeUntilPrefix(parts[0], [c] + rest, c);
      assert s[|parts[0]| + 1..] == rest;
      SplitJoin(parts[1..], c);
    }
  }

  /** A string without `c` is its own `split(c)[0]`. */
  lemma {:induction false} TakeUntilWhole(s: string, c: char)
    requires c !in s
    ensures TakeUntil(s, c) == s
  {
    var r := TakeUntil(s, c);
    if |r| < |s| {
      assert false;
    }
  }

  /** `split(c)[0]` of `a + b` is `a` when `a` has no `c` and `b` starts with one. */
  lemma {:induction false} TakeUntilPrefix(a: string, b: string, c: char)
    requires c !in a
    requires |b| > 0 && b[0] == c
    ensures TakeUntil(a + b, c) == a
    decreases |a|
  {
    if |a| > 0 {
      assert (a + b)[1..] == a[1..] + b;
      TakeUntilPrefix(a[1..], b, c);
    }
  }

  /** The characters Python's `str.strip()` removes (`str.isspace()`). */
  const Whitespace: set<char> :=
    {'\t', '\n', '\U{0B}', '\U{0C}', '\r', '\U{1C}', '\U{1D}', '\U{1E}', '\U{1F}', ' ',
     '\U{85}', '\U{A0}', '\U{1680}', '\U{2000}', '\U{2001}', '\U{2002}', '\U{2003}',
     '\U{2004}', '\U{2005}', '\U{2006}', '\U{2007}', '\U{2008}', '\U{2009}', '\U{200A}',
     '\U{2028}', '\U{2029}', '\U{202F}', '\U{205F}', '\U{3000}'}

  /** `s.lstrip(chars)`: drops leading characters that are in `cs`. */
  function StripLeft(s: string, cs: set<char>): string
  {
    if |s| > 0 && s[0] in cs then StripLeft(s[1..], cs) else s
  }

  /** `s.rstrip(chars)`: drops trailing characters that are in `cs`. */
  function StripRight(s: string, cs: set<char>): string
  {
    if |s| > 0 && s[|s| - 1] in cs then StripRight(s[..|s| - 1], cs) else s
  }

  /** `s.strip(chars)`. */
  function StripChars(s: string, cs: set<char>): string
  {
    StripRight(StripLeft(s, cs), cs)
  }

  /** `lstrip` keeps a suffix that does not start with a character of `cs`,
      and everything it drops is in `cs`. */
  lemma {:induction false} StripLeftDrops(s: string, cs: set<char>)
    ensures var r := StripLeft(s, cs);
            && |r| <= |s| && r == s[|s| - |r|..]
            && (forall i :: 0 <= i < |s| - |r| ==> s[i] in cs)
            && (|r| > 0 ==> r[0] !in cs)
    decreases |s|
  {
    if |s| > 0 && s[0] in cs {
      StripLeftDrops(s[1..], cs);
      var r := StripLeft(s, cs);
      forall i | 1 <= i < |s| - |r| ensures s[i] in cs {
        assert s[1..][i - 1] == s[i];
      }
      assert s[1..][|s| - 1 - |r|..] == s[|s| - |r|..];
    }
  }

  /** `rstrip` keeps a prefix that does not end with a character of `cs`,
      and everything it drops is in `cs`. */
  lemma {:induction false} StripRightDrops(s: string, cs: set<char>)
    ensures var r := StripRight(s, cs);
            && |r| <= |s| && r == s[..|r|]
            && (forall i :: |r| <= i < |s| ==> s[i] in cs)
            && (|r| > 0 ==> r[|r| - 1] !in cs)
    decreases |s|
  {
    if |s| > 0 && s[|s| - 1] in cs {
      var init := s[..|s| - 1];
      StripRightDrops(init, cs);
      var r := StripRight(s, cs);
      forall i | |r| <= i < |s| ensures s[i] in cs {
        if i < |s| - 1 {
          assert init[i] == s[i];
        }
      }
      assert init[..|r|] == s[..|r|];
    }
  }

  /** `s.strip()`. */
  function Strip(s: string): string
  {
    StripChars(s, Whitespace)
  }

  /** Stripping `cs` from a string wrapped in one character of `cs` on each
      side gives the string back, when its own ends are not in `cs`. */
  lemma {:induction false} StripWrapped(s: string, open: char, close: char, cs: set<char>)
    requires open in cs && close in cs
    requires |s| > 0 ==> s[0] !in cs && s[|s| - 1] !in cs
    ensures StripChars([open] + s + [close], cs) == s
  {
    var w := [open] + s + [close];
    assert w[1..] == s + [close];
    if |s| > 0 {
      assert StripLeft(w, cs) == StripLeft(s + [close], cs);
      assert (s + [close])[0] == s[0];
      var t := s + [close];
      assert StripLeft(w, cs) == t;
      assert t[..|t| - 1] == s;
      assert StripRight(t, cs) == StripRight(s, cs) == s;
    } else {
      assert w == [open, close];
      assert StripLeft([close], cs) == StripLeft([], cs);
      assert StripLeft(w, cs) == [];
    }
  }

  /** The first character of `s` that is not whitespace is `ch`. */
  predicate FirstNonBlankIs(s: string, ch: char) {
    exists i | 0 <= i < |s| :: s[i] == ch && forall j | 0 <= j < i :: s[j] in Whitespace
  }

  /** `s.strip().startswith(ch)` holds exactly when the first non-blank
      character of `s` is `ch`, for any non-blank `ch`. */
  lemma {:induction false} StripStartsWith(s: string, ch: char)
    requires ch !in Whitespace
    ensures StartsWith(Strip(s), [ch]) <==> FirstNonBlankIs(s, ch)
    decreases |s|
  {
    if |s| > 0 && s[0] in Whitespace {
      StripStartsWith(s[1..], ch);
      if FirstNonBlankIs(s[1..], ch) {
        var i :| 0 <= i < |s[1..]| && s[1..][i] == ch && forall j | 0 <= j < i :: s[1..][j] in Whitespace;
        assert s[i + 1] == ch;
        assert forall j | 0 <= j < i + 1 :: s[j] in Whitespace by {
          forall j | 0 <= j < i + 1 ensures s[j] in Whitespace {
            if j > 0 { assert s[j] == s[1..][j - 1]; }
          }
        }
      }
      if FirstNonBlankIs(s, ch) {
        var i :| 0 <= i < |s| && s[i] == ch && forall j | 0 <= j < i :: s[j] in Whitespace;
        assert i > 0;
        assert s[1..][i - 1] == ch;
        assert forall j | 0 <= j < i - 1 :: s[1..][j] in Whitespace by {
          forall j | 0 <= j < i - 1 ensures s[1..][j] in Whitespace {
            assert s[1..][j] == s[j + 1];
          }
        }
      }
    } else if |s| > 0 {
      StripRightKeepsHead(s, Whitespace);
      assert FirstNonBlankIs(s, ch) <==> s[0] == ch;
    }
  }

  /** Stripping the right end of a string that starts with a non-blank
      character keeps that character at the front. */
  lemma {:induction false} StripRightKeepsHead(s: string, cs: set<char>)
    requires |s| > 0 && s[0] !in cs
    ensures |StripRight(s, cs)| > 0 && StripRight(s, cs)[0] == s[0]
    decreases |s|
  {
    if s[|s| - 1] in cs {
      StripRightKeepsHead(s[..|s| - 1], cs);
    }
  }

  /** `ch.lower()` for one character; only ASCII capitals change. */
  function LowerChar(ch: char): char {
    if 'A' <= ch <= 'Z' then (ch as int + 32) as char else ch
  }

  /** `s.lower()`, character by character. */
  function Lower(s: string): (r: string)
    ensures |r| == |s|
    ensures forall i :: 0 <= i < |s| ==> r[i] == LowerChar(s[i])
  {
    seq(|s|, i requires 0 <= i < |s| => LowerChar(s[i]))
  }
}

=== FILE: trace.dfy ===
/** Cloudflare detection and datacenter extraction of tester.py
    (`is_cloudflare`, `get_cloudflare_colo`), driven by the `key=value`
    lines of `/cdn-cgi/trace` and by response headers. */
module Trace {
  import opened Wrappers
  import opened Text
  import Colo

  /** One HTTP exchange: a caught exception (client error or timeout), or
      the status, the headers keyed by lower-case name, and the body. */
  datatype HttpReply = HttpRaised | HttpReplied(status: int, headers: map<string, string>, body: string)

  /** `colo_to_chinese`. */
  const ColoToChinese: map<string, string> := map[
    "HKG" := "香港", "LAX" := "洛杉矶", "SIN" := "新加坡", "NRT" := "东京", "KIX" := "大阪",
    "TPE" := "台北", "ICN" := "首尔", "SYD" := "悉尼", "SJC" := "圣何塞", "SEA" := "西雅图",
    "FRA" := "法兰克福", "LHR" := "伦敦", "CDG" := "巴黎", "AMS" := "阿姆斯特丹", "MIA" := "迈阿密",
    "ATL" := "亚特兰大", "ORD" := "芝加哥", "YYZ" := "多伦多"]

  const Unknown: string := "未知"

  /** `text.split('\n')`. */
  function Lines(body: string): seq<string> {
    Split(body, '\n')
  }

  /** Some line starts with `p`. */
  predicate SomeLineStartsWith(lines: seq<string>, p: string) {
    exists i | 0 <= i < |lines| :: StartsWith(lines[i], p)
  }

  /** The headers name Cloudflare: a `server` header containing
      `cloudflare` in any case, or a `cf-ray` header. */
  predicate HeadersMarkCloudflare(headers: map<string, string>) {
    ("server" in headers && Contains(Lower(headers["server"]), "cloudflare")) || "cf-ray" in headers
  }

  /** `is_cloudflare`: `trace` answers the request for `/cdn-cgi/trace`,
      `root` the request for `/` that is made only when the trace does
      not decide. */
  function IsCloudflare(trace: HttpReply, root: HttpReply): (r: bool)
    // a failed first request decides against
    ensures trace.HttpRaised? ==> !r
    // a good trace with a line beginning "fl=" or "colo=" decides for
    ensures TraceMarked(trace) ==> r
    // otherwise the headers of the second request decide
    ensures trace.HttpReplied? && !TraceMarked(trace) ==> (r <==> root.HttpReplied? && HeadersMarkCloudflare(root.headers))
  {
    match trace
    case HttpRaised => false
    case HttpReplied(status, _, body) =>
      if status == 200 && (SomeLineStartsWith(Lines(body), "fl=") || SomeLineStartsWith(Lines(body), "colo=")) then true
      else
        match root
        case HttpRaised => false
        case HttpReplied(_, headers, _) => HeadersMarkCloudflare(headers)
  }

  /** A good trace with a line beginning `fl=` or `colo=`. */
  predicate TraceMarked(trace: HttpReply) {
    trace.HttpReplied? && trace.status == 200
    && (SomeLineStartsWith(Lines(trace.body), "fl=") || SomeLineStartsWith(Lines(trace.body), "colo="))
  }

  /** The trace decides on its raw text: it starts with `fl=` or `colo=`,
      or one of them follows a newline. */
  lemma TraceMarkedByText(trace: HttpReply)
    requires trace.HttpReplied? && trace.status == 200
    ensures TraceMarked(trace) <==>
      || StartsWith(trace.body, "fl=") || Contains(trace.body, "\nfl=")
      || StartsWith(trace.body, "colo=") || Contains(trace.body, "\ncolo=")
  {
    LineStartIff(trace.body, "fl=");
    LineStartIff(trace.body, "colo=");
    assert ['\n'] + "fl=" == "\nfl=";
    assert ['\n'] + "colo=" == "\ncolo=";
  }

  /** A line of the text starts with `p` exactly when the text does or
      `p` follows a newline somewhere in it. */
  lemma {:induction false} LineStartIff(s: string, p: string)
    requires '\n' !in p
    ensures SomeLineStartsWith(Lines(s), p) <==> StartsWith(s, p) || Contains(s, ['\n'] + p)
    decreases |s|
  {
    var head := TakeUntil(s, '\n');
    if |head| == |s| {
      assert head == s;
      assert Lines(s) == [s];
      if Contains(s, ['\n'] + p) {
        var i :| 0 <= i <= |s| && ['\n'] + p <= s[i..];
        OccurrenceAt(s, ['\n'] + p, i);
        assert false;
      }
    } else {
      var rest := s[|head| + 1..];
      assert s == head + ['\n'] + rest;
      assert Lines(s) == [head] + Lines(rest);
      LineStartIff(rest, p);
      HeadStartIff(head, rest, p);
      NewlineContainsIff(head, rest, p);
      if SomeLineStartsWith(Lines(s), p) {
        var i :| 0 <= i < |Lines(s)| && StartsWith(Lines(s)[i], p);
        if i > 0 {
          assert Lines(rest)[i - 1] == Lines(s)[i];
        }
      }
      if SomeLineStartsWith(Lines(rest), p) {
        var i :| 0 <= i < |Lines(rest)| && StartsWith(Lines(rest)[i], p);
        assert Lines(s)[i + 1] == Lines(rest)[i];
      }
    }
  }

  /** `head + "\n" + rest` starts with a newline-free `p` iff `head` does. */
  lemma HeadStartIff(head: string, rest: string, p: string)
    requires '\n' !in p && '\n' !in head
    ensures StartsWith(head + ['\n'] + rest, p) <==> StartsWith(head, p)
  {
    var s := head + ['\n'] + rest;
    if StartsWith(s, p) && |p| > |head| {
      PrefixCharAt(p, s, |head|);
      assert false;
    }
    if StartsWith(head, p) {
      assert s[..|p|] == head[..|p|];
    }
  }

  /** An occurrence of `q` at offset `i` puts `q`'s first character at `s[i]`. */
  lemma OccurrenceAt(s: string, q: string, i: int)
    requires 0 <= i <= |s| && |q| > 0 && q <= s[i..]
    ensures i < |s| && s[i] == q[0] && q[0] in s
  {
  }

  /** A newline followed by `p` occurs in `head + "\n" + rest` iff `rest`
      starts with `p` or contains it after a newline. */
  lemma NewlineContainsIff(head: string, rest: string, p: string)
    requires '\n' !in head
    ensures Contains(head + ['\n'] + rest, ['\n'] + p) <==> StartsWith(rest, p) || Contains(rest, ['\n'] + p)
  {
    if Contains(head + ['\n'] + rest, ['\n'] + p) {
      NewlineContainsToRest(head, rest, p);
    }
    if StartsWith(rest, p) || Contains(rest, ['\n'] + p) {
      RestToNewlineContains(head, rest, p);
    }
  }

  lemma NewlineContainsToRest(head: string, rest: string, p: string)
    requires '\n' !in head
    requires Contains(head + ['\n'] + rest, ['\n'] + p)
    ensures StartsWith(rest, p) || Contains(rest, ['\n'] + p)
  {
    var s := head + ['\n'] + rest;
    var i :| 0 <= i <= |s| && ['\n'] + p <= s[i..];
    OccurrenceInJoin(head, rest, ['\n'] + p, i);
    if i == |head| {
      PrefixOfTail(p, rest, '\n');
    }
  }

  /** Where an occurrence of a newline-led `q` in `head + "\n" + rest` can sit. */
  lemma OccurrenceInJoin(head: string, rest: string, q: string, i: int)
    requires '\n' !in head && |q| > 0 && q[0] == '\n'
    requires 0 <= i <= |head| + 1 + |rest| && q <= (head + ['\n'] + rest)[i..]
    ensures i >= |head|
    ensures i == |head| ==> q <= ['\n'] + rest
    ensures i > |head| ==> Contains(rest, q)
  {
    var s := head + ['\n'] + rest;
    OccurrenceAt(s, q, i);
    if i < |head| {
      assert false;
    } else if i == |head| {
      assert s[i..] == ['\n'] + rest;
    } else {
      var j := i - |head| - 1;
      assert s[i..] == rest[j..];
      assert q <= rest[j..];
    }
  }

  /** `c + p` is a prefix of `c + r` only if `p` is a prefix of `r`. */
  lemma PrefixOfTail(p: string, r: string, c: char)
    requires [c] + p <= [c] + r
    ensures p <= r
  {
    assert forall k :: 0 <= k < |p| ==> p[k] == ([c] + p)[k + 1] == ([c] + r)[k + 1] == r[k];
  }

  /** A character of a prefix is the character of the whole at that index. */
  lemma PrefixCharAt(p: string, s: string, k: int)
    requires p <= s && 0 <= k < |p|
    ensures p[k] == s[k]
  {
  }

  lemma RestToNewlineContains(head: string, rest: string, p: string)
    requires StartsWith(rest, p) || Contains(rest, ['\n'] + p)
    ensures Contains(head + ['\n'] + rest, ['\n'] + p)
  {
    var s := head + ['\n'] + rest;
    var q := ['\n'] + p;
    if StartsWith(rest, p) {
      assert s[|head|..] == ['\n'] + rest;
      assert q <= s[|head|..];
    } else {
      var j :| 0 <= j <= |rest| && q <= rest[j..];
      assert s[|head| + 1 + j..] == rest[j..];
    }
  }

  /** The index of the first line starting with `p`. */
  function FirstLineWith(lines: seq<string>, p: string): (r: Option<nat>)
    ensures r.Some? ==> r.value < |lines| && StartsWith(lines[r.value], p)
                        && forall j :: 0 <= j < r.value ==> !StartsWith(lines[j], p)
    ensures r.None? <==> !SomeLineStartsWith(lines, p)
  {
    if |lines| == 0 then None
    else if StartsWith(lines[0], p) then Some(0)
    else
      match FirstLineWith(lines[1..], p)
      case None =>
        assert forall j :: 1 <= j < |lines| ==> lines[j] == lines[1..][j - 1];
        None
      case Some(k) =>
        assert forall j :: 1 <= j < k + 1 ==> lines[j] == lines[1..][j - 1];
        Some(k + 1)
  }

  /** `line.split('=')[1]` of a `colo=` line: the value up to any further
      `=`. */
  function ColoField(line: string): (c: string)
    requires StartsWith(line, "colo=")
    ensures c == TakeUntil(line[5..], '=')
  {
    assert line[4] == '=';
    assert line == "colo" + line[4..];
    TakeUntilPrefix("colo", line[4..], '=');
    assert line[4..][1..] == line[5..];
    Split(line, '=')[1]
  }

  /** The label `get_cloudflare_colo` writes for a datacenter code. */
  function ColoLabel(c: string): string {
    c + " (" + (if c in ColoToChinese then ColoToChinese[c] else c) + ")"
  }

  /** `get_cloudflare_colo`: the label of the first `colo=` line of a good
      trace, or unknown. */
  function GetCloudflareColo(trace: HttpReply): (r: string)
    ensures r != Unknown <==> trace.HttpReplied? && trace.status == 200 && SomeLineStartsWith(Lines(trace.body), "colo=")
    ensures r != Unknown ==>
      var lines := Lines(trace.body);
      exists i | 0 <= i < |lines| ::
        && StartsWith(lines[i], "colo=")
        && (forall j :: 0 <= j < i ==> !StartsWith(lines[j], "colo="))
        && r == ColoLabel(ColoField(lines[i]))
  {
    match trace
    case HttpRaised => Unknown
    case HttpReplied(status, _, body) =>
      if status != 200 then Unknown
      else
        match FirstLineWith(Lines(body), "colo=")
        case None => Unknown
        case Some(i) =>
          var written := ColoLabel(ColoField(Lines(body)[i]));
          assert |written| >= 3;
          written
  }

  /** The label tester.py writes, `"HKG (香港)"`, is understood by the
      display-name lookup of isdnsok.py, which resolves it through the
      code in front. */
  lemma LabelReadBack(c: string, mapping: map<string, string>)
    requires ' ' !in c && '(' !in c
    requires c in mapping && ColoLabel(c) !in mapping
    ensures Colo.GetColoChinese(ColoLabel(c), mapping) == mapping[c]
  {
    Colo.LabelledCodeUsesPrefix(c, if c in ColoToChinese then ColoToChinese[c] else c, mapping);
  }
}

=== FILE: wrappers.dfy ===
/** The optional-value datatype shared by the other modules: Python's
    `None` versus a present value. */
module Wrappers {

  datatype Option<+T> = None | Some(value: T) {

    /** The value, or `default` when there is none. */
    function GetOr(default: T): T {
      match this
      case Some(v) => v
      case None => default
    }
  }
}
